=== FILE: README.md ===
# Market-Comparer API client and symbol resolver, in Dafny

This project models the two modules through which Market-Comparer talks to the
Perps API.

- `src/common/api_client.py` holds `PerpsAPIClient`. It builds a cache key from
  an endpoint and its query parameters, and keeps a ten-minute response cache.
  Its `_get` turns HTTP statuses into distinct errors. The typed getters
  (`get_latest_data`, `get_symbol_aliases`, `get_symbol_registry`) are built on
  `_get`. So is `get_all_daily_data`, the bulk history fetch: one request, a
  one-record probe when the answer was full, and a paginated loop of at most
  1000 records per request.
- `src/common/symbol_resolver.py` holds `SymbolResolver`. It loads the alias
  table once, builds a forward table (raw → canonical) and a reverse table
  (canonical → raw symbols in load order), resolves symbols, and normalises
  user input (strip, upper-case, add `-USD` when there is no dash, then
  resolve).

Modules:

- `Results` (`results.dfy`): `Option` and `Result`.
- `Text` (`text.dfy`): Python's `str.strip()` over Python's whitespace set,
  ASCII upper-casing, decimal rendering of integers with its parser, and
  code-point order on strings.
- `QueryString` (`query_string.dfy`): `urllib.parse.urlencode` with
  `quote_plus` (UTF-8, `%XX`, `+` for space), and a decoder that undoes it.
- `ApiClient` (`api_client.dfy`): dict-ordered parameters, the cache key, the
  client, `_get` and the typed getters.
- `BulkHistory` (`bulk_history.dfy`): `get_all_daily_data` and the pagination
  loop.
- `DatasetServer` (`dataset_server.dfy`): a server that holds one fixed dataset
  and answers every daily-history request with the `limit`/`offset` window
  of it, cut to at most `cap` records per request (the source's comment at
  `src/common/api_client.py:124` gives the real API's maximum as 1000). Its
  answers on the other endpoints are left open. The theorems assume a cache
  whose daily-history entries hold what the server says; earlier calls to
  the other endpoints keep that true. Against this server the bulk fetch as
  written returns exactly the first `limit` records only when `limit` is
  within the cap. Beyond the cap it stops after the first answer with only
  `cap` records (see Findings). The corrected fetch returns the first
  `limit` records for every `limit` when the cap is at least 1000.
- `SymbolResolver` (`symbol_resolver.dfy`): the resolver.

Modelling conventions:

- The network is a total function `server: Request -> Reply`, where a `Reply`
  is a status with a decoded body, or a transport failure.
- The clock is a `now: real` argument.
- Every call returns a `Step`: its result (`Ok` or a typed `ApiError`), the
  client afterwards (with its cache), and the requests it actually sent.
- Python's falsy optional strings (`None` or `""`) are `""`.
- Python dicts of parameters are insertion-ordered sequences with distinct
  keys.

Two behaviours of the resolver's loading code are worth knowing:

- **Failed alias load.** When the alias request fails, the handler at
  `src/common/symbol_resolver.py:49-51` swallows the error. Both tables and
  `loaded` stay as they were (`LoadAliases`). Only a successful request
  rebuilds both tables from scratch and sets `loaded` (`:32-33`).
- **Forward and reverse tables can disagree.** The forward table keeps the
  last canonical symbol seen for each raw symbol (`:40`). The reverse table
  only ever appends (`:42-45`). When a later record moves a raw symbol to
  another canonical symbol, the reverse table still lists it under the first
  one (`SymbolResolver.StaleReverseEntry`).
  `SymbolResolver.ReverseAgreesWithAliases` shows the two tables agree when
  the response lists each raw symbol under one canonical symbol.

## Model

| member | source | states |
|---|---|---|
| Text.Strip | src/common/symbol_resolver.py:71 | `strip()` removes whitespace only, from both ends: the result is a contiguous piece of the input, everything cut off is whitespace, nothing at either end of the result is, and it is empty exactly when the input is all whitespace |
| Text.StripOfStripped | src/common/symbol_resolver.py:71 | stripping a string with no whitespace at either end changes nothing |
| Text.Upper | src/common/symbol_resolver.py:71 | `upper()` keeps the length and upper-cases each character in place |
| Text.UpperIdempotent | src/common/symbol_resolver.py:71 | upper-casing twice is upper-casing once |
| Text.UpperPreserves | src/common/symbol_resolver.py:71-74 | upper-casing keeps a stripped string stripped and keeps the presence or absence of `-` |
| Text.ParseIntToString | src/common/api_client.py:32 | the decimal text `urlencode` writes for an integer parameter reads back as that integer |
| Text.IntToStringInjective | src/common/api_client.py:69 | different statuses give different decimal texts |
| QueryString.UnquoteQuotePlus | src/common/api_client.py:32 | `quote_plus` is undone by unquoting: the round trip gives the original string back |
| QueryString.QuotePlusInjective | src/common/api_client.py:32 | different strings quote to different texts |
| QueryString.Utf8RoundTrip | src/common/api_client.py:32 | the UTF-8 bytes `quote_plus` percent-encodes decode back to the code point |
| QueryString.Urlencode | src/common/api_client.py:32 | an encoded query never contains `:` and is non-empty when there are parameters, so the last `:` of a cache key separates the endpoint from the query |
| QueryString.DecodeUrlencode | src/common/api_client.py:32 | decoding `urlencode(pairs)` gives back exactly the pairs, in order |
| ApiClient.LookupIffListed | src/common/api_client.py:84-88 | in a dict with distinct keys, looking a key up gives `v` exactly when `(k, v)` is an item |
| ApiClient.Assign | src/common/api_client.py:86 | `params[k] = v` keeps the keys distinct, makes `k` give `v`, and leaves every other key alone |
| ApiClient.SortByKeySorted | src/common/api_client.py:32 | `sorted(params.items())` of a dict comes out in strictly increasing key order |
| ApiClient.SortByKey | src/common/api_client.py:32 | sorting keeps exactly the same items (a permutation) |
| ApiClient.SortedUnique | src/common/api_client.py:32 | two key-sorted lists with the same items are equal, so the sort does not depend on insertion order |
| ApiClient.CacheKey | src/common/api_client.py:30-32 | a cache key decodes back to its endpoint and its key-sorted parameters |
| ApiClient.CacheKeyIdentifiesRequest | src/common/api_client.py:30-32 | two requests share a cache key exactly when they have the same endpoint and the same parameters on the wire |
| ApiClient.CacheKeyIgnoresOrder | src/common/api_client.py:30-32 | the order in which parameters were added does not change the key |
| ApiClient.NewClient | src/common/api_client.py:15-20 | a new client has an empty cache; its base URL is the given one, or the fixed default URL when none is given; its key is the given one, or the environment's |
| ApiClient.IsCacheValid | src/common/api_client.py:34-41 | an entry is valid exactly when the key is cached and its age is under ten minutes |
| ApiClient.CacheEntryLifetime | src/common/api_client.py:34-41 | an entry stored at time `t` is valid exactly before `t` plus ten minutes, and storing it leaves the validity of every other key unchanged |
| ApiClient.ReplyOutcome | src/common/api_client.py:63-80 | 401, 429, any other non-200 status and a transport failure each give their own error; only 200 gives the body |
| ApiClient.ErrorMessage | src/common/api_client.py:64-80 | the message is `Invalid API key` exactly for a 401 and `Rate limit exceeded` exactly for a 429; it starts with `API error: ` exactly for another status and with `Network error: ` exactly for a transport failure |
| ApiClient.ErrorMessageInjective | src/common/api_client.py:64-80 | the four error messages never coincide, so the message tells the error kind and status |
| ApiClient.Get | src/common/api_client.py:34-80 | a valid entry is returned as stored with no request; otherwise one request goes out and its reply decides; only a 200 is cached, stamped with the time; errors leave the client unchanged |
| ApiClient.RepeatWithinTtlIsCached | src/common/api_client.py:34-53 | a second identical call within ten minutes of a success sends nothing and returns the same body, whatever the network now says |
| ApiClient.RepeatAfterTtlRefetches | src/common/api_client.py:34-41 | ten minutes or more after a fetch, the same call goes to the network again |
| ApiClient.WithOptional | src/common/api_client.py:85-88 | an optional parameter is added exactly when its value is non-empty, and nothing else changes |
| ApiClient.WithFilters | src/common/api_client.py:96-99 | `exchange` and `symbol` are present exactly when given, and the other parameters are untouched |
| ApiClient.LatestParams | src/common/api_client.py:84-88 | `get_latest_data` sends `limit` always, `exchange` and `symbol` exactly when given, and nothing else |
| ApiClient.GetLatestData | src/common/api_client.py:82-90 | its result, the client afterwards and the request sent are those of `_get` on the latest-data endpoint with those parameters; at most one request goes out |
| ApiClient.GetSymbolAliases | src/common/api_client.py:156-158 | its result, the client afterwards and the request sent are those of `_get` on the alias endpoint with only `limit`; at most one request goes out |
| ApiClient.RegistryParams | src/common/api_client.py:162-164 | `get_symbol_registry` sends `limit` always, `exchange` exactly when given, and nothing else |
| ApiClient.GetSymbolRegistry | src/common/api_client.py:160-166 | its result, the client afterwards and the request sent are those of `_get` on the registry endpoint with those parameters; at most one request goes out |
| BulkHistory.PyPrefix | src/common/api_client.py:151 | `all_data[:limit]` is the prefix of length `min(limit, n)`, or with `n + limit` items dropped from the end for a negative limit |
| BulkHistory.DailyParams | src/common/api_client.py:95-99 | the first request asks for `all=1` and `limit`, has no offset, carries the filters exactly when given, and sets no other key |
| BulkHistory.ProbeParams | src/common/api_client.py:108-110 | the probe asks for one record at the given offset (`get_all_daily_data` passes `limit`), with every other parameter as in the first request |
| BulkHistory.BatchParams | src/common/api_client.py:130-134 | each page asks for `all=1`, its size and its offset, with the filters exactly when given, and sets no other key |
| BulkHistory.AppendPage | src/common/api_client.py:126-147 | a page adds its batch to the data held and its requested size to the offset; the loop goes on after it exactly when the batch was full |
| BulkHistory.LimitReached | src/common/api_client.py:126 | a loop holding `limit` records has made all its passes |
| BulkHistory.PageLoop | src/common/api_client.py:126-147 | a loop that ends without error has made a complete trace of well-requested passes, extending the passes made so far, and each added pass holds exactly the records `_get` returned to it from the client the pass before left (`Replay`); an error is that of the first failing pass, after passes that were answered (`FailsAfter`) |
| BulkHistory.AfterPass | src/common/api_client.py:136-147 | a failed request is raised as it is; an empty or short batch is added and ends the loop; a full one is followed by passes that replay from the client it left; any successful end is a complete trace |
| BulkHistory.LoopTraceNeedsPositiveLimit | src/common/api_client.py:126 | no pass is made unless `limit` is positive |
| BulkHistory.LoopTraceRequests | src/common/api_client.py:124-143 | every pass asks for 1 to 1000 records; the first at offset 0, and each next one at the previous offset plus the size asked for, even after a short batch |
| BulkHistory.NoOverDeliveryNoTruncation | src/common/api_client.py:146-153 | when no batch exceeds what was asked, the loop never holds more than `limit` records, so nothing is cut off and `total_fetched` equals the data returned |
| BulkHistory.GetPaginated | src/common/api_client.py:120-154 | a successful result is built from a complete loop trace whose passes replay against `_get` from the given client, ending at the returned client after exactly the requests sent; an error is that of the first failing pass; the result is marked paginated and uncached and holds at most `limit` records, never more than were fetched |
| BulkHistory.PaginatedResult | src/common/api_client.py:149-154 | the dict holds the collected records cut to `limit` (`min(limit, n)` of them for a non-negative limit), reports every record fetched in `total_fetched`, and is marked paginated and uncached with offset 0 |
| BulkHistory.ProbeOrPaginate | src/common/api_client.py:107-118 | the probe is sent at the given offset; a failed probe is raised; an empty probe returns the first answer unchanged after the probe; a non-empty probe hands over to the paginated path from the client the probe left, after the first request, the probe and the loop's requests |
| BulkHistory.GetAllDailyData | src/common/api_client.py:92-118 | a failed first request is raised with nothing else asked; an unpaginated result is the first answer unchanged; pagination only follows a full first answer |
| BulkHistory.ShortFirstAnswer | src/common/api_client.py:101-105 | a first answer with fewer than `limit` records is returned as it came, and no probe is sent |
| BulkHistory.EmptyProbe | src/common/api_client.py:107-118 | after a full first answer and an empty probe, the first answer is returned after exactly those two requests |
| BulkHistory.FailedProbe | src/common/api_client.py:107-118 | after a full first answer, a failed probe is raised: its error, with the client the probe left, after exactly the first request and the probe |
| BulkHistory.NonEmptyProbe | src/common/api_client.py:107-118 | after a full first answer and a non-empty probe, the result and client are those of the paginated path started from the probe's client, after the first request, the probe and the loop's requests |
| BulkHistory.GetAllDailyDataFixed | src/common/api_client.py:101-118 | as evidently intended under the 1000-record cap: a failed first request is raised; a first answer shorter than both `limit` and 1000 is returned with no probe; otherwise the probe goes to the offset just after the records received, and an unpaginated result is the first answer unchanged |
| BulkHistory.FixedAgreesWithinBatch | src/common/api_client.py:101-118 | for `limit` up to 1000, when the first answer never holds more than was asked, the corrected fetch is `get_all_daily_data` as written: same result, client and requests |
| DatasetServer.GetFromDataset | src/common/api_client.py:43-77 | against a server that answers daily-history requests from one dataset, at most `cap` records at a time, and a cache whose daily-history entries hold only what that server says, a daily-history `_get` returns what the server says, hit or miss, and keeps the cache consistent |
| DatasetServer.GetElsewhere | src/common/api_client.py:43-77 | a `_get` for any other endpoint keeps the daily-history entries of the cache consistent, whatever the server answers it |
| DatasetServer.DailyFetchServesPages | src/common/api_client.py:130-137 | each page request within the cap is answered with exactly the records of the dataset it asks for, those that exist |
| DatasetServer.DatasetLoop | src/common/api_client.py:126-147 | the loop that starts with a prefix of the dataset, asking for no more than the cap per page, ends holding exactly the first `limit` records, or the whole dataset when it is shorter |
| DatasetServer.DatasetPaginated | src/common/api_client.py:120-154 | when its pages fit the cap, the paginated path returns exactly the first `limit` records (all when fewer), with that many reported fetched |
| DatasetServer.DatasetFirst | src/common/api_client.py:95-101 | the first request returns the first `limit` records, or all of them when there are fewer, but never more than the cap |
| DatasetServer.DatasetProbe | src/common/api_client.py:108-115 | a probe finds a record exactly when the dataset holds one at the probed offset |
| DatasetServer.BulkFetchIsComplete | src/common/api_client.py:92-154 | for `limit` within the server's cap, from a cache whose daily-history entries match it, `get_all_daily_data` returns exactly the first `limit` records (all when fewer); it paginates exactly when there are more than `limit` and then reports `limit` fetched |
| DatasetServer.CappedFetchIncomplete | src/common/api_client.py:101-105 | when `limit` and the dataset both exceed the cap, `get_all_daily_data` returns the first answer of `cap` records as received, after that one request, with records the caller asked for missing |
| DatasetServer.FixedFetchIsComplete | src/common/api_client.py:92-154 | against a server whose cap is at least 1000, the corrected fetch returns exactly the first `limit` records (all when fewer) for every `limit`, paginates exactly when one request cannot carry them, and then reports as many fetched |
| DatasetServer.FetchAllDataHistory | src/api_fetcher.py:18-28 | in `fetch_all_data`'s order (load the aliases through a new client, fetch the latest snapshot, then `get_all_daily_data(limit=10000)`), each of the three calls at its own time, against a server capped at 1000 records per request and holding more than that, the history is only the first 1000 records, from one request |
| DatasetServer.FetchAllDataHistoryFixed | src/api_fetcher.py:18-28 | in the same order with the corrected fetch, against any server whose cap is at least 1000, the history comes back complete |
| SymbolResolver.AddItem | src/common/symbol_resolver.py:39-45 | adding one record keeps the canonical order listing each reverse key exactly once |
| SymbolResolver.BuildTables | src/common/symbol_resolver.py:32-45 | tables built from scratch are well formed |
| SymbolResolver.OnlyAcceptedMatter | src/common/symbol_resolver.py:36-39 | records with an empty or missing raw or canonical symbol have no effect on the tables |
| SymbolResolver.AliasesDomain | src/common/symbol_resolver.py:35-40 | a raw symbol has an alias exactly when an accepted record lists it |
| SymbolResolver.LastWriteWins | src/common/symbol_resolver.py:40 | a raw symbol listed several times resolves to the canonical symbol of its last accepted record |
| SymbolResolver.ReverseIsFilter | src/common/symbol_resolver.py:42-45 | the reverse entry of a canonical symbol is the raw symbols of its accepted records, in response order and with repeats; it exists exactly when there is one |
| SymbolResolver.ReverseDomain | src/common/symbol_resolver.py:43-44 | a canonical symbol has a reverse entry exactly when an accepted record names it |
| SymbolResolver.CanonicalOrder | src/common/symbol_resolver.py:43-44 | canonical symbols are listed in order of first appearance in the response |
| SymbolResolver.LoadWith | src/common/symbol_resolver.py:18-51 | loading through a client is a no-op once loaded; otherwise the alias request decides; success rebuilds both tables from the response and marks the resolver loaded; failure leaves it unchanged |
| SymbolResolver.LoadAliases | src/common/symbol_resolver.py:18-51 | as written: a resolver with a client loads through it; one without a client sends nothing and stays as it was; it ends loaded exactly when it was, or when it has a client whose alias request succeeds |
| SymbolResolver.LoadAliasesFixed | src/common/symbol_resolver.py:18-51 | as evidently intended: without a client, a loaded resolver is left alone with nothing sent; an unloaded one sends exactly the default client's alias request and ends loaded exactly when that request succeeds, with both tables rebuilt from its response; with a client it is `load_aliases` as written |
| SymbolResolver.NoClientNeverLoads | src/common/symbol_resolver.py:24-27 | a resolver made without a client stays unloaded even against a server that answers every request, while the corrected load succeeds |
| SymbolResolver.Resolve | src/common/symbol_resolver.py:53-59 | an empty symbol stays empty, an aliased symbol becomes its canonical symbol, and any other symbol stays itself |
| SymbolResolver.EmptyNeverAliased | src/common/symbol_resolver.py:53-59 | no alias is ever stored for the empty symbol, so the early return agrees with the lookup |
| SymbolResolver.ResolveLoaded | src/common/symbol_resolver.py:53-59 | after loading, a listed raw symbol resolves to the canonical symbol of its last accepted record |
| SymbolResolver.ResolveUnlisted | src/common/symbol_resolver.py:59 | after loading, an unlisted symbol resolves to itself |
| SymbolResolver.AliasesFor | src/common/symbol_resolver.py:61-63 | the recorded raw symbols of a canonical symbol, or the symbol alone when none are recorded |
| SymbolResolver.AliasesForLoaded | src/common/symbol_resolver.py:61-63 | after loading, the recorded raw symbols are those of its accepted records in order, and the answer is never empty |
| SymbolResolver.AllCanonical | src/common/symbol_resolver.py:80-82 | on well-formed tables, the list holds exactly the keys of the reverse table, each once |
| SymbolResolver.AllCanonicalLoaded | src/common/symbol_resolver.py:80-82 | the canonical symbols listed are exactly those named by accepted records, each once |
| SymbolResolver.AliasCountLoaded | src/common/symbol_resolver.py:84-86 | the alias count is the number of distinct raw symbols among accepted records, however often each repeats |
| SymbolResolver.AliasCount | src/common/symbol_resolver.py:84-86 | the count is never negative and is zero exactly when the forward table is empty |
| SymbolResolver.ReverseAgreesWithAliases | src/common/symbol_resolver.py:40-45 | when the response lists each raw symbol under one canonical symbol, every raw symbol in a reverse entry resolves back to that canonical symbol |
| SymbolResolver.StaleReverseEntry | src/common/symbol_resolver.py:40-45 | without that condition, a raw symbol moved to a second canonical symbol stays in the first one's reverse entry |
| SymbolResolver.SymbolForm | src/common/symbol_resolver.py:71-75 | the pre-resolution form is empty exactly for all-whitespace input; otherwise it is stripped and upper-cased, gets `-USD` exactly when there is no dash, and is in normal form |
| SymbolResolver.SymbolFormOfNormal | src/common/symbol_resolver.py:71-75 | a symbol already in normal form is its own pre-resolution form |
| SymbolResolver.Normalize | src/common/symbol_resolver.py:65-78 | empty and all-whitespace input gives `""`; otherwise the normal form is resolved through the alias table |
| SymbolResolver.NormalizeIdempotent | src/common/symbol_resolver.py:65-78 | normalising twice is normalising once, provided every alias target is in normal form and maps to itself |
| SymbolResolver.NormalizeIdempotentUnloaded | src/common/symbol_resolver.py:65-78 | with no aliases loaded, normalising is idempotent |
| SymbolResolver.UnsettledNotIdempotent | src/common/symbol_resolver.py:65-78 | with the alias `BTC-USD` → `XBT`, whose target is not in normal form, `btc` normalises to `XBT` |
| SymbolResolver.UnsettledMovesAgain | src/common/symbol_resolver.py:71-78 | with the same alias, `XBT` normalises on to `XBT-USD`, so normalising is not idempotent without the condition above |
| SymbolResolver.NormalizeExample | src/common/symbol_resolver.py:71-78 | ` btc ` with no aliases normalises to `BTC-USD` |
| SymbolResolver.AliasesForExample | src/common/symbol_resolver.py:61-63 | two records under `BTC-USD` give both raw symbols in load order; an unknown symbol gives itself |

## Left out

- The aiohttp session (`__aenter__`, `__aexit__`, lazy session creation) and `async`: each call is a pure step, and the network is a function argument.
- JSON decoding of the body, including a `data` that is not a list: a reply carries an already decoded body whose `data` is an optional list of records.
- Records whose fields are not strings, and list items that are not dicts. With those, `load_aliases` could fail half-way through its loop; here every item is a record of string fields.
- `health_check` and `db_check`: they are plain `_get` calls with no parameters, covered by `ApiClient.Get`.
- The module-level singleton `get_symbol_resolver`, and the warning that `load_aliases` prints on failure: global state and console output.
- `time.time()` as a float: time is an exact `real`.
- Reading the clock once per request: the source reads `time.time()` inside each `_get`, both for the validity check (`src/common/api_client.py:45`) and for the stored time stamp (`:76`). Here the whole call takes one `now`. All requests of one `get_all_daily_data` call (the first request, the probe and every page) share that one time stamp. So an entry cannot expire between the requests of one bulk fetch, and the entries it stores all carry the same time. Separate calls take separate times.
- Text.Upper: upper-cases ASCII letters only. Python's `str.upper()` maps other scripts too, and can lengthen a string (`ß` → `SS`).
- The HTTP reply's content type and `aiohttp.ContentTypeError`: a reply is a status and a decoded body.
- DatasetServer: the real API server is not part of this model. The completeness theorems hold for a server that answers every daily-history request with the `limit`/`offset` window of a fixed dataset, cut to a per-request cap of at least one record. What it answers on the other endpoints does not matter.
- DatasetServer.BulkFetchIsComplete: proves completeness of `get_all_daily_data` as written only for `limit` within the server's cap. Beyond the cap it does not hold (`DatasetServer.CappedFetchIncomplete`), and the corrected fetch carries the completeness promise instead (`DatasetServer.FixedFetchIsComplete`).
- DatasetServer.FetchAllDataHistory: does not promise a complete history, because against a server capped at 1000 records per request the history is cut short. `DatasetServer.FetchAllDataHistoryFixed` promises completeness for the corrected fetch.
- BulkHistory.GetAllDailyData: the exact result of each path after a successful first request is stated in the lemmas `ShortFirstAnswer`, `FailedProbe`, `EmptyProbe` and `NonEmptyProbe`, not in its own `ensures`.
- The command-line fetch scripts that call this client: outside the two modules modelled. The one exception is `DatasetServer.FetchAllDataHistory`, which follows the order of the first three requests of `fetch_all_data`. The output files, and the later alias and registry fetches, are not modelled.

## Findings

| source | as written | input that shows it | evidently intended | confidence | as-written member | corrected member |
|---|---|---|---|---|---|---|
| src/common/symbol_resolver.py:24-27 | `async with get_api_client() as client`, where `get_api_client` is a coroutine function (`src/common/api_client.py:177-180`), so the call gives a coroutine rather than an async context manager; the failure is swallowed at `:49-51` | a resolver made without a client (`SymbolResolver()`, as `get_symbol_resolver()` does by default), against any server | load through a default `PerpsAPIClient()` | high, not executed | SymbolResolver.NoClientNeverLoads | SymbolResolver.LoadAliasesFixed |
| src/common/api_client.py:104 | a first answer with fewer than `limit` records is taken as the whole history, while the loop at `:124` says the API sends at most 1000 records per request | `get_all_daily_data(limit=10000)`, as `fetch_all_data` calls it (`src/api_fetcher.py:28`), against a server holding more than 1000 records: the first answer holds 1000, `1000 < 10000`, and those 1000 are returned with no probe | treat the first answer as complete only when it holds fewer than `min(limit, 1000)` records; otherwise probe just after the records received and paginate when more exist | medium, not executed | DatasetServer.CappedFetchIncomplete | BulkHistory.GetAllDailyDataFixed |

=== FILE: api_client.dfy ===
/** `PerpsAPIClient` (src/common/api_client.py): authenticated GET requests
    behind a ten-minute response cache.

    The network is a parameter: a total function `server` that answers every
    request that gets past the cache with an HTTP status and a decoded body, or
    with a transport failure. The clock is a parameter too (`now`, seconds).
    Every call returns the client as it is afterwards and the requests it sent,
    so that "served from the cache, nothing sent" can be stated. */
module ApiClient {
  import opened Results
  import Text
  import QueryString

  /** One element of a response's `data` list: field names to values, not interpreted. */
  datatype Record = Record(fields: map<string, string>)

  /** A decoded response body: its `data` list, if the key is present, and the
      other top-level fields, kept opaque. */
  datatype Payload = Payload(data: Option<seq<Record>>, rest: map<string, string>)

  /** `response.get("data", [])` */
  function DataOrEmpty(p: Payload): seq<Record> {
    p.data.GetOr([])
  }

  /** A query-parameter value: the typed getters use ints and strings. */
  datatype Value = IntVal(i: int) | StrVal(s: string)

  /** A parameter dict, in insertion order. */
  type Params = seq<(string, Value)>

  /** `str(v)`: the text that goes on the wire and into the cache key. */
  function ValueText(v: Value): string {
    match v
    case IntVal(i) => Text.IntToString(i)
    case StrVal(s) => s
  }

  /** No name occurs twice, as in a dict. */
  predicate DistinctKeys<V>(p: seq<(string, V)>) {
    forall i, j :: 0 <= i < j < |p| ==> p[i].0 != p[j].0
  }

  /** `d.get(k)` */
  function Lookup<V>(p: seq<(string, V)>, k: string): (r: Option<V>)
    ensures r.Some? ==> (k, r.value) in p
    ensures r.None? ==> forall i :: 0 <= i < |p| ==> p[i].0 != k
  {
    if p == [] then None
    else if p[0].0 == k then Some(p[0].1)
    else Lookup(p[1..], k)
  }

  /** In a dict without repeated names, a name maps to a value exactly when the pair is listed. */
  lemma {:induction false} LookupIffListed<V>(p: seq<(string, V)>, k: string, v: V)
    requires DistinctKeys(p)
    ensures Lookup(p, k) == Some(v) <==> (k, v) in p
  {
    if p != [] && p[0].0 != k {
      LookupIffListed(p[1..], k, v);
      if (k, v) in p {
        assert (k, v) in p[1..];
      }
    }
  }

  /** `d[k] = v` on an insertion-ordered dict: an existing name keeps its
      place, a new one is added last. */
  function Assign<V>(p: seq<(string, V)>, k: string, v: V): (r: seq<(string, V)>)
    requires DistinctKeys(p)
    ensures DistinctKeys(r)
    ensures Lookup(r, k) == Some(v)
    ensures forall k' :: k' != k ==> Lookup(r, k') == Lookup(p, k')
  {
    if p == [] then [(k, v)]
    else if p[0].0 == k then [(k, v)] + p[1..]
    else
      var t := Assign(p[1..], k, v);
      assert forall i :: 0 <= i < |t| ==> t[i].0 == k || Lookup(p[1..], t[i].0).Some?;
      [p[0]] + t
  }

  /** The parameters as they go on the wire: each value as text, in dict order. */
  function Render(p: Params): (r: seq<(string, string)>)
    ensures |r| == |p|
    ensures forall i :: 0 <= i < |p| ==> r[i] == (p[i].0, ValueText(p[i].1))
  {
    if p == [] then [] else [(p[0].0, ValueText(p[0].1))] + Render(p[1..])
  }

  /** Both lists hold the same pairs. */
  ghost predicate SameItems<T(!new)>(a: seq<T>, b: seq<T>) {
    forall x :: x in a <==> x in b
  }

  /** Strictly increasing names, in Python's string order. */
  ghost predicate SortedByKey(s: seq<(string, string)>) {
    forall i, j :: 0 <= i < j < |s| ==> Text.StrLess(s[i].0, s[j].0)
  }

  function Insert(x: (string, string), s: seq<(string, string)>): (r: seq<(string, string)>)
    ensures multiset(r) == multiset(s) + multiset{x}
  {
    if s == [] then [x]
    else if Text.StrLess(x.0, s[0].0) then [x] + s
    else
      assert s == [s[0]] + s[1..];
      [s[0]] + Insert(x, s[1..])
  }

  lemma {:induction false} InsertSorted(x: (string, string), s: seq<(string, string)>)
    requires SortedByKey(s)
    requires forall i :: 0 <= i < |s| ==> s[i].0 != x.0
    ensures SortedByKey(Insert(x, s))
  {
    if s == [] {
    } else if Text.StrLess(x.0, s[0].0) {
      forall j | 1 <= j < |s| ensures Text.StrLess(x.0, s[j].0) {
        Text.StrLessTransitive(x.0, s[0].0, s[j].0);
      }
    } else {
      Text.StrLessTotal(x.0, s[0].0);
      InsertSorted(x, s[1..]);
      var t := Insert(x, s[1..]);
      forall k | 0 <= k < |t| ensures Text.StrLess(s[0].0, t[k].0) {
        assert t[k] in multiset(t);
        if t[k] != x {
          assert t[k] in s[1..];
        }
      }
    }
  }

  /** Python's `sorted(params.items())` for a dict: by name, since names never repeat. */
  function SortByKey(s: seq<(string, string)>): (r: seq<(string, string)>)
    ensures multiset(r) == multiset(s)
  {
    if s == [] then []
    else
      assert s == [s[0]] + s[1..];
      Insert(s[0], SortByKey(s[1..]))
  }

  lemma {:induction false} SortByKeySorted(s: seq<(string, string)>)
    requires DistinctKeys(s)
    ensures SortedByKey(SortByKey(s))
  {
    if s != [] {
      SortByKeySorted(s[1..]);
      var t := SortByKey(s[1..]);
      forall i | 0 <= i < |t| ensures t[i].0 != s[0].0 {
        assert t[i] in multiset(s[1..]);
      }
      InsertSorted(s[0], t);
    }
  }

  /** Two lists sorted by strictly increasing name that hold the same pairs are equal. */
  lemma {:induction false} SortedUnique(a: seq<(string, string)>, b: seq<(string, string)>)
    requires SortedByKey(a) && SortedByKey(b)
    requires SameItems(a, b)
    ensures a == b
  {
    assert a != [] ==> a[0] in b;
    assert b != [] ==> b[0] in a;
    if a != [] && b != [] {
      var j :| 0 <= j < |b| && b[j] == a[0];
      assert b[0] in a;
      var i :| 0 <= i < |a| && a[i] == b[0];
      if j > 0 {
        if i == 0 {
          Text.StrLessIrreflexive(b[0].0);
        } else {
          Text.StrLessTotal(a[0].0, b[0].0);
        }
      }
      assert a[0] == b[0];
      forall x ensures x in a[1..] <==> x in b[1..] {
        if x in a[1..] {
          var k :| 1 <= k < |a| && a[k] == x;
          Text.StrLessIrreflexive(a[0].0);
          assert x in b;
          var m :| 0 <= m < |b| && b[m] == x;
          assert m != 0;
          assert b[1..][m - 1] == x;
        }
        if x in b[1..] {
          var k :| 1 <= k < |b| && b[k] == x;
          Text.StrLessIrreflexive(b[0].0);
          assert x in a;
          var m :| 0 <= m < |a| && a[m] == x;
          assert m != 0;
          assert a[1..][m - 1] == x;
        }
      }
      SortedUnique(a[1..], b[1..]);
    }
  }

  /** `_get_cache_key`: the endpoint, a colon, and `urlencode` of the
      parameters sorted by name. The key can be read back: it records its
      endpoint and its parameters. */
  function CacheKey(endpoint: string, params: Params): (key: string)
    ensures DecodeCacheKey(key) == Some((endpoint, SortByKey(Render(params))))
  {
    var pairs := SortByKey(Render(params));
    QueryString.SplitAtLastOf(endpoint, ':', QueryString.Urlencode(pairs));
    QueryString.DecodeUrlencode(pairs);
    endpoint + ":" + QueryString.Urlencode(pairs)
  }

  /** Reads a cache key back into its endpoint and its sorted wire parameters. */
  function DecodeCacheKey(key: string): Option<(string, seq<(string, string)>)> {
    match QueryString.SplitAtLast(key, ':')
    case None => None
    case Some((e, q)) =>
      match QueryString.DecodeQuery(q)
      case None => None
      case Some(pairs) => Some((e, pairs))
  }

  /** Sorting keeps exactly the pairs it was given. */
  lemma SortByKeySameItems(s: seq<(string, string)>)
    ensures SameItems(SortByKey(s), s)
  {
    forall x ensures x in SortByKey(s) <==> x in s {
      assert x in SortByKey(s) <==> x in multiset(SortByKey(s));
    }
  }

  /** One cache key is one request: equal keys come from the same endpoint
      and the same name/value pairs on the wire. */
  lemma SameKeySameRequest(e1: string, p1: Params, e2: string, p2: Params)
    requires CacheKey(e1, p1) == CacheKey(e2, p2)
    ensures e1 == e2 && SameItems(Render(p1), Render(p2))
  {
    SortByKeySameItems(Render(p1));
    SortByKeySameItems(Render(p2));
  }

  /** One request is one cache key, whatever order its pairs were inserted in. */
  lemma SameRequestSameKey(e: string, p1: Params, p2: Params)
    requires DistinctKeys(p1) && DistinctKeys(p2)
    requires SameItems(Render(p1), Render(p2))
    ensures CacheKey(e, p1) == CacheKey(e, p2)
  {
    SortByKeySameItems(Render(p1));
    SortByKeySameItems(Render(p2));
    SortByKeySorted(Render(p1));
    SortByKeySorted(Render(p2));
    SortedUnique(SortByKey(Render(p1)), SortByKey(Render(p2)));
  }

  /** Two parameter dicts get the same cache key exactly when they go to the
      same endpoint with the same name/value pairs on the wire, whatever order
      they were inserted in: the cache neither splits one request over two
      entries nor lets two different requests share one. */
  lemma CacheKeyIdentifiesRequest(e1: string, p1: Params, e2: string, p2: Params)
    requires DistinctKeys(p1) && DistinctKeys(p2)
    ensures CacheKey(e1, p1) == CacheKey(e2, p2) <==> e1 == e2 && SameItems(Render(p1), Render(p2))
  {
    if CacheKey(e1, p1) == CacheKey(e2, p2) {
      SameKeySameRequest(e1, p1, e2, p2);
    }
    if e1 == e2 && SameItems(Render(p1), Render(p2)) {
      SameRequestSameKey(e1, p1, p2);
    }
  }

  /** The same parameters inserted in a different order give the same cache key. */
  lemma CacheKeyIgnoresOrder(endpoint: string, p: Params, q: Params)
    requires DistinctKeys(p) && DistinctKeys(q)
    requires SameItems(p, q)
    ensures CacheKey(endpoint, p) == CacheKey(endpoint, q)
  {
    forall x ensures x in Render(p) ==> x in Render(q) {
      if x in Render(p) {
        var i :| 0 <= i < |p| && Render(p)[i] == x;
        assert p[i] in q;
        var j :| 0 <= j < |q| && q[j] == p[i];
        assert Render(q)[j] == x;
      }
    }
    forall x ensures x in Render(q) ==> x in Render(p) {
      if x in Render(q) {
        var j :| 0 <= j < |q| && Render(q)[j] == x;
        assert q[j] in p;
        var i :| 0 <= i < |p| && p[i] == q[j];
        assert Render(p)[i] == x;
      }
    }
    CacheKeyIdentifiesRequest(endpoint, p, endpoint, q);
  }

  /** `self.base_url` when none is given. */
  const DefaultBaseUrl := "https://perps-node-d942af6814fa.herokuapp.com"

  /** `self.cache_ttl`: ten minutes, in seconds. */
  const CacheTtl: real := 600.0

  /** `self.cache[key] = (fetched_at, data)` */
  datatype CacheEntry = CacheEntry(fetchedAt: real, payload: Payload)

  /** The client's state: where it sends requests, with which key, and its cache. */
  datatype Client = Client(baseUrl: string, apiKey: string, cache: map<string, CacheEntry>)

  /** `PerpsAPIClient(base_url, api_key)`: an empty string stands for an omitted
      argument, and `envApiKey` for `os.getenv('API_KEY', '')`. */
  function NewClient(baseUrl: string, apiKey: string, envApiKey: string): (c: Client)
    ensures c.cache == map[]
    ensures c.baseUrl != ""
    ensures baseUrl != "" ==> c.baseUrl == baseUrl
    ensures baseUrl == "" ==> c.baseUrl == DefaultBaseUrl
    ensures apiKey != "" ==> c.apiKey == apiKey
    ensures apiKey == "" ==> c.apiKey == envApiKey
  {
    Client(if baseUrl == "" then DefaultBaseUrl else baseUrl,
           if apiKey == "" then envApiKey else apiKey,
           map[])
  }

  /** `_is_cache_valid(key)` at time `now`. */
  predicate IsCacheValid(cache: map<string, CacheEntry>, key: string, now: real) {
    key in cache && now - cache[key].fetchedAt < CacheTtl
  }

  /** An entry stored at time `t` is valid exactly until ten minutes after
      `t`, and storing it changes no other key's validity. */
  lemma CacheEntryLifetime(cache: map<string, CacheEntry>, key: string, other: string, t: real,
                           p: Payload, now: real)
    ensures IsCacheValid(cache[key := CacheEntry(t, p)], key, now) <==> now < t + CacheTtl
    ensures other != key ==>
              (IsCacheValid(cache[key := CacheEntry(t, p)], other, now) <==> IsCacheValid(cache, other, now))
  {
  }

  /** A request as it reaches the network: the full URL, the wire parameters
      in dict order, and the `x-api-key` header. */
  datatype Request = Request(url: string, query: seq<(string, string)>, apiKey: string)

  /** What the network gives back: a status with a decoded body, or an
      `aiohttp.ClientError`. */
  datatype Reply = Reply(status: int, body: Payload) | TransportFailure(reason: string)

  /** The distinct errors `_get` raises. */
  datatype ApiError =
    | InvalidApiKey
    | RateLimitExceeded
    | HttpError(status: int)
    | NetworkError(reason: string)

  /** The message of the exception `_get` raises for each error. */
  function ErrorMessage(e: ApiError): (m: string)
    ensures m == "Invalid API key" <==> e == InvalidApiKey
    ensures m == "Rate limit exceeded" <==> e == RateLimitExceeded
    ensures "API error: " <= m <==> e.HttpError?
    ensures "Network error: " <= m <==> e.NetworkError?
  {
    match e
    case InvalidApiKey =>
      assert "Invalid API key"[0] == 'I';
      "Invalid API key"
    case RateLimitExceeded =>
      assert "Rate limit exceeded"[0] == 'R';
      "Rate limit exceeded"
    case HttpError(status) =>
      var m := "API error: " + Text.IntToString(status);
      assert m[..11] == "API error: " && m[0] == 'A';
      m
    case NetworkError(reason) =>
      var m := "Network error: " + reason;
      assert m[..15] == "Network error: " && m[0] == 'N';
      m
  }

  /** Different errors carry different messages, so a caller that only sees the
      message still knows which error it was. */
  lemma ErrorMessageInjective(e1: ApiError, e2: ApiError)
    requires ErrorMessage(e1) == ErrorMessage(e2)
    ensures e1 == e2
  {
    var m := ErrorMessage(e1);
    assert m[0] == ErrorMessage(e2)[0];
    if e1.HttpError? && e2.HttpError? {
      assert m[11..] == Text.IntToString(e1.status);
      assert ErrorMessage(e2)[11..] == Text.IntToString(e2.status);
      Text.IntToStringInjective(e1.status, e2.status);
    }
    if e1.NetworkError? && e2.NetworkError? {
      assert m[15..] == e1.reason;
      assert ErrorMessage(e2)[15..] == e2.reason;
    }
  }

  /** The outcome of one `_get` call and the client after it, with the requests
      it put on the network. */
  datatype Step<T> = Step(result: Result<T, ApiError>, client: Client, sent: seq<Request>)

  /** The request `_get` sends for `endpoint` and `params`. */
  function RequestFor(c: Client, endpoint: string, params: Params): Request {
    Request(c.baseUrl + endpoint, Render(params), c.apiKey)
  }

  /** How `_get` turns a reply into a result: 401, 429 and every other status
      but 200 are distinct errors, a transport failure is a network error, and
      only a 200 yields the body. */
  function ReplyOutcome(reply: Reply): (r: Result<Payload, ApiError>)
    ensures r.Ok? <==> reply.Reply? && reply.status == 200
    ensures r.Ok? ==> r.value == reply.body
    ensures r == Err(InvalidApiKey) <==> reply.Reply? && reply.status == 401
    ensures r == Err(RateLimitExceeded) <==> reply.Reply? && reply.status == 429
    ensures r.Err? && r.error.HttpError? <==> reply.Reply? && reply.status !in {200, 401, 429}
    ensures r.Err? && r.error.HttpError? ==> r.error.status == reply.status
    ensures r.Err? && r.error.NetworkError? <==> reply.TransportFailure?
  {
    match reply
    case TransportFailure(reason) => Err(NetworkError(reason))
    case Reply(status, body) =>
      if status == 401 then Err(InvalidApiKey)
      else if status == 429 then Err(RateLimitExceeded)
      else if status != 200 then Err(HttpError(status))
      else Ok(body)
  }

  /** `_get(endpoint, params)` at time `now`. */
  function Get(c: Client, endpoint: string, params: Params, now: real, server: Request -> Reply)
    : (r: Step<Payload>)
    ensures r.client.baseUrl == c.baseUrl && r.client.apiKey == c.apiKey
    // a valid entry is returned as stored, with no request and no change
    ensures IsCacheValid(c.cache, CacheKey(endpoint, params), now) ==>
              r == Step(Ok(c.cache[CacheKey(endpoint, params)].payload), c, [])
    // otherwise one request goes out and its reply decides the result
    ensures !IsCacheValid(c.cache, CacheKey(endpoint, params), now) ==>
              && r.sent == [RequestFor(c, endpoint, params)]
              && r.result == ReplyOutcome(server(RequestFor(c, endpoint, params)))
    // an error leaves the cache alone; only a fetched 200 is stored, stamped `now`
    ensures r.result.Err? ==> r.client == c
    ensures r.sent != [] && r.result.Ok? ==>
              r.client.cache == c.cache[CacheKey(endpoint, params) := CacheEntry(now, r.result.value)]
    ensures r.sent == [] ==> r.client == c
  {
    var key := CacheKey(endpoint, params);
    if IsCacheValid(c.cache, key, now) then
      Step(Ok(c.cache[key].payload), c, [])
    else
      var req := RequestFor(c, endpoint, params);
      match ReplyOutcome(server(req))
      case Err(e) => Step(Err(e), c, [req])
      case Ok(body) => Step(Ok(body), c.(cache := c.cache[key := CacheEntry(now, body)]), [req])
  }

  /** A repeated call within ten minutes of a successful one is served from the
      cache: nothing is sent, whatever the network would now say, and the same
      body comes back. */
  lemma RepeatWithinTtlIsCached(c: Client, endpoint: string, params: Params, t1: real, t2: real,
                                server1: Request -> Reply, server2: Request -> Reply)
    requires Get(c, endpoint, params, t1, server1).result.Ok?
    requires t2 - t1 < CacheTtl
    requires !IsCacheValid(c.cache, CacheKey(endpoint, params), t1) || t2 - c.cache[CacheKey(endpoint, params)].fetchedAt < CacheTtl
    ensures var first := Get(c, endpoint, params, t1, server1);
            var second := Get(first.client, endpoint, params, t2, server2);
            second.sent == [] && second.result == first.result && second.client == first.client
  {
  }

  /** Ten minutes or more after a fetch, the same call goes to the network again. */
  lemma RepeatAfterTtlRefetches(c: Client, endpoint: string, params: Params, t1: real, t2: real,
                                server1: Request -> Reply, server2: Request -> Reply)
    requires Get(c, endpoint, params, t1, server1).result.Ok?
    requires Get(c, endpoint, params, t1, server1).sent != []
    requires t2 - t1 >= CacheTtl
    ensures var first := Get(c, endpoint, params, t1, server1);
            Get(first.client, endpoint, params, t2, server2).sent == [RequestFor(c, endpoint, params)]
  {
  }

  /** Adds `name=value` only when `value` is non-empty, as `if exchange: params["exchange"] = exchange`. */
  function WithOptional(p: Params, name: string, value: string): (r: Params)
    requires DistinctKeys(p)
    ensures DistinctKeys(r)
    ensures value == "" ==> r == p
    ensures value != "" ==> Lookup(r, name) == Some(StrVal(value))
    ensures forall k :: k != name ==> Lookup(r, k) == Lookup(p, k)
  {
    if value == "" then p else Assign(p, name, StrVal(value))
  }

  /** The optional filters the getters add: `exchange` and `symbol`, each
      only when it is given. */
  function WithFilters(p: Params, exchange: string, symbol: string): (r: Params)
    requires DistinctKeys(p)
    requires Lookup(p, "exchange") == None && Lookup(p, "symbol") == None
    ensures DistinctKeys(r)
    ensures Lookup(r, "exchange") == if exchange == "" then None else Some(StrVal(exchange))
    ensures Lookup(r, "symbol") == if symbol == "" then None else Some(StrVal(symbol))
    ensures forall k :: k != "exchange" && k != "symbol" ==> Lookup(r, k) == Lookup(p, k)
  {
    WithOptional(WithOptional(p, "exchange", exchange), "symbol", symbol)
  }

  const LatestEndpoint := "/v1/marketcompare/latest_data"
  const DailyEndpoint := "/v1/marketcompare/daily_data"
  const AliasesEndpoint := "/v1/marketcompare/symbol_aliases"
  const RegistryEndpoint := "/v1/marketcompare/symbol_registry"

  /** The parameters of `get_latest_data`: the limit, and the exchange and the
      symbol only when they are given. */
  function LatestParams(limit: int, exchange: string, symbol: string): (p: Params)
    ensures DistinctKeys(p)
    ensures Lookup(p, "limit") == Some(IntVal(limit))
    ensures Lookup(p, "exchange").Some? <==> exchange != ""
    ensures exchange != "" ==> Lookup(p, "exchange") == Some(StrVal(exchange))
    ensures Lookup(p, "symbol").Some? <==> symbol != ""
    ensures symbol != "" ==> Lookup(p, "symbol") == Some(StrVal(symbol))
    ensures forall k :: Lookup(p, k).Some? ==> k == "limit" || k == "exchange" || k == "symbol"
  {
    var base: Params := [("limit", IntVal(limit))];
    assert Lookup(base, "exchange") == None && Lookup(base, "symbol") == None;
    WithFilters(base, exchange, symbol)
  }

  /** The parameters of `get_symbol_registry`: the limit, and the exchange only when given. */
  function RegistryParams(limit: int, exchange: string): (p: Params)
    ensures DistinctKeys(p)
    ensures Lookup(p, "limit") == Some(IntVal(limit))
    ensures Lookup(p, "exchange").Some? <==> exchange != ""
    ensures exchange != "" ==> Lookup(p, "exchange") == Some(StrVal(exchange))
    ensures forall k :: Lookup(p, k).Some? ==> k == "limit" || k == "exchange"
  {
    var base: Params := [("limit", IntVal(limit))];
    assert Lookup(base, "exchange") == None;
    WithOptional(base, "exchange", exchange)
  }

  /** `get_latest_data(limit, exchange, symbol)` */
  function GetLatestData(c: Client, limit: int, exchange: string, symbol: string, now: real,
                         server: Request -> Reply): (r: Step<Payload>)
    ensures |r.sent| <= 1
    ensures forall q :: q in r.sent ==> q == RequestFor(c, LatestEndpoint, LatestParams(limit, exchange, symbol))
    // the result, the client afterwards and the request are those of `_get`
    ensures r == Get(c, LatestEndpoint, LatestParams(limit, exchange, symbol), now, server)
  {
    Get(c, LatestEndpoint, LatestParams(limit, exchange, symbol), now, server)
  }

  /** `get_symbol_aliases(limit)` */
  function GetSymbolAliases(c: Client, limit: int, now: real, server: Request -> Reply): (r: Step<Payload>)
    ensures |r.sent| <= 1
    ensures forall q :: q in r.sent ==> q == RequestFor(c, AliasesEndpoint, [("limit", IntVal(limit))])
    // the result, the client afterwards and the request are those of `_get`
    ensures r == Get(c, AliasesEndpoint, [("limit", IntVal(limit))], now, server)
  {
    Get(c, AliasesEndpoint, [("limit", IntVal(limit))], now, server)
  }

  /** `get_symbol_registry(limit, exchange)` */
  function GetSymbolRegistry(c: Client, limit: int, exchange: string, now: real,
                             server: Request -> Reply): (r: Step<Payload>)
    ensures |r.sent| <= 1
    ensures forall q :: q in r.sent ==> q == RequestFor(c, RegistryEndpoint, RegistryParams(limit, exchange))
    // the result, the client afterwards and the request are those of `_get`
    ensures r == Get(c, RegistryEndpoint, RegistryParams(limit, exchange), now, server)
  {
    Get(c, RegistryEndpoint, RegistryParams(limit, exchange), now, server)
  }
}

=== FILE: bulk_history.dfy ===
/** `get_all_daily_data` and `_get_all_daily_data_paginated`
    (src/common/api_client.py): fetch the daily history in one request, probe
    for more when the answer was full, and page through it when there is. */
module BulkHistory {
  import opened Results
  import opened ApiClient

  /** `batch_size`: the most records the API returns per request. */
  const BatchSize := 1000

  function Min(a: int, b: int): int {
    if a <= b then a else b
  }

  function Max(a: int, b: int): int {
    if a <= b then b else a
  }

  /** Python's `s[:k]` for any `int` `k`: a negative `k` drops that many from the end. */
  function PyPrefix<T>(s: seq<T>, k: int): (r: seq<T>)
    ensures |r| == (if k >= 0 then Min(k, |s|) else Max(0, |s| + k))
    ensures r == s[..|r|]
  {
    if k >= 0 then s[..Min(k, |s|)]
    else if |s| + k >= 0 then s[..|s| + k]
    else []
  }

  /** The first request's parameters: `{"all": 1, "limit": limit}` plus the
      exchange and the symbol when they are given. */
  function DailyParams(limit: int, exchange: string, symbol: string): (p: Params)
    ensures DistinctKeys(p)
    ensures Lookup(p, "all") == Some(IntVal(1))
    ensures Lookup(p, "limit") == Some(IntVal(limit))
    ensures Lookup(p, "offset") == None
    ensures Lookup(p, "exchange").Some? <==> exchange != ""
    ensures exchange != "" ==> Lookup(p, "exchange") == Some(StrVal(exchange))
    ensures Lookup(p, "symbol").Some? <==> symbol != ""
    ensures symbol != "" ==> Lookup(p, "symbol") == Some(StrVal(symbol))
    ensures forall k :: Lookup(p, k).Some? ==> k == "all" || k == "limit" || k == "exchange" || k == "symbol"
  {
    var base := Assign(Assign([], "all", IntVal(1)), "limit", IntVal(limit));
    WithFilters(base, exchange, symbol)
  }

  /** The probe's parameters: the first request's, asking for one record at
      `offset=at` (`get_all_daily_data` probes at `at == limit`). */
  function ProbeParams(limit: int, at: int, exchange: string, symbol: string): (p: Params)
    ensures DistinctKeys(p)
    ensures Lookup(p, "all") == Some(IntVal(1))
    ensures Lookup(p, "limit") == Some(IntVal(1))
    ensures Lookup(p, "offset") == Some(IntVal(at))
    ensures forall k :: k != "limit" && k != "offset" ==>
              Lookup(p, k) == Lookup(DailyParams(limit, exchange, symbol), k)
  {
    Assign(Assign(DailyParams(limit, exchange, symbol), "offset", IntVal(at)), "limit", IntVal(1))
  }

  /** One page request's parameters: `size` records from `offset`, with the
      same filters as the first request. */
  function BatchParams(size: int, offset: int, exchange: string, symbol: string): (p: Params)
    ensures DistinctKeys(p)
    ensures Lookup(p, "all") == Some(IntVal(1))
    ensures Lookup(p, "limit") == Some(IntVal(size))
    ensures Lookup(p, "offset") == Some(IntVal(offset))
    ensures Lookup(p, "exchange").Some? <==> exchange != ""
    ensures exchange != "" ==> Lookup(p, "exchange") == Some(StrVal(exchange))
    ensures Lookup(p, "symbol").Some? <==> symbol != ""
    ensures symbol != "" ==> Lookup(p, "symbol") == Some(StrVal(symbol))
    ensures forall k :: Lookup(p, k).Some? ==>
              k == "all" || k == "limit" || k == "offset" || k == "exchange" || k == "symbol"
  {
    var base: Params := [("all", IntVal(1)), ("limit", IntVal(size)), ("offset", IntVal(offset))];
    assert Lookup(base, "all") == Some(IntVal(1));
    assert Lookup(base, "limit") == Some(IntVal(size));
    assert Lookup(base[1..][1..], "offset") == Some(IntVal(offset));
    assert Lookup(base[1..], "offset") == Some(IntVal(offset));
    assert Lookup(base, "offset") == Some(IntVal(offset));
    assert Lookup(base, "exchange") == None && Lookup(base, "symbol") == None;
    WithFilters(base, exchange, symbol)
  }

  /** One pass of the pagination loop that got an answer: the size it asked
      for, the offset it asked at, and the batch that came back. */
  datatype Page = Page(size: int, offset: int, batch: seq<Record>)

  /** `all_data` after the given passes: their batches, concatenated. */
  function Flatten(pages: seq<Page>): seq<Record> {
    if pages == [] then [] else Flatten(pages[..|pages| - 1]) + pages[|pages| - 1].batch
  }

  /** The sum of the sizes the given passes asked for. */
  function Requested(pages: seq<Page>): int {
    if pages == [] then 0 else Requested(pages[..|pages| - 1]) + pages[|pages| - 1].size
  }

  /** After this pass the loop goes on: the batch was neither empty nor short. */
  predicate Continued(p: Page) {
    p.batch != [] && |p.batch| >= p.size
  }

  /** Pass `i` was made while fewer than `limit` records were held, asked for
      what was still missing capped at 1000, at the sum of the sizes asked for
      before it (not the sum of the sizes returned). */
  ghost predicate WellRequested(limit: int, pages: seq<Page>, i: int)
    requires 0 <= i < |pages|
  {
    var held := |Flatten(pages[..i])|;
    && held < limit
    && pages[i].size == Min(BatchSize, limit - held)
    && pages[i].offset == Requested(pages[..i])
  }

  /** The passes of a loop that has not stopped yet. */
  ghost predicate IsPartialTrace(limit: int, pages: seq<Page>) {
    && (forall i :: 0 <= i < |pages| ==> WellRequested(limit, pages, i))
    && (forall i :: 0 <= i < |pages| ==> Continued(pages[i]))
  }

  /** `pages` are all the passes the loop makes: each well requested, every
      one but the last followed by another, and the loop stopped after the last
      one because its batch was empty or short or `limit` records were held
      (or it never started because `limit` was not positive). */
  ghost predicate IsLoopTrace(limit: int, pages: seq<Page>) {
    && (forall i :: 0 <= i < |pages| ==> WellRequested(limit, pages, i))
    && (forall i :: 0 <= i < |pages| - 1 ==> Continued(pages[i]))
    && (pages == [] ==> limit <= 0)
    && (pages != [] ==> !Continued(pages[|pages| - 1]) || |Flatten(pages)| >= limit)
  }

  /** Appending a well-requested pass to the passes of a loop that has not
      stopped: the loop either goes on or has made all its passes. */
  lemma AppendPage(limit: int, pages: seq<Page>, p: Page)
    requires IsPartialTrace(limit, pages)
    requires |Flatten(pages)| < limit
    requires p.size == Min(BatchSize, limit - |Flatten(pages)|)
    requires p.offset == Requested(pages)
    ensures Flatten(pages + [p]) == Flatten(pages) + p.batch
    ensures Requested(pages + [p]) == Requested(pages) + p.size
    ensures Continued(p) ==> IsPartialTrace(limit, pages + [p])
    ensures !Continued(p) ==> IsLoopTrace(limit, pages + [p])
  {
    var ps := pages + [p];
    assert ps[..|pages|] == pages;
    forall i | 0 <= i < |ps| ensures WellRequested(limit, ps, i) {
      assert ps[..i] == pages[..i];
      if i < |pages| {
        assert WellRequested(limit, pages, i);
      }
    }
    assert forall i :: 0 <= i < |pages| ==> ps[i] == pages[i];
  }

  /** A loop that holds `limit` records has made all its passes. */
  lemma LimitReached(limit: int, pages: seq<Page>)
    requires IsPartialTrace(limit, pages)
    requires |Flatten(pages)| >= limit
    ensures IsLoopTrace(limit, pages)
  {
  }

  /** How one pass of the loop is sent: asked of the given client state for
      `size` records at `offset`. */
  type Fetch = (Client, int, int) -> Step<Payload>

  /** The passes of `_get_all_daily_data_paginated` are `_get`s of the daily
      endpoint with the loop's parameters, all at the same time against the
      same network. */
  function DailyFetch(now: real, server: Request -> Reply, exchange: string, symbol: string): Fetch {
    (c: Client, size: int, offset: int) => Get(c, DailyEndpoint, BatchParams(size, offset, exchange, symbol), now, server)
  }

  /** Making the passes `run` one after another from client `c`, each from
      the client the one before it left: the client after them and the
      requests they sent, when every pass is answered without error by a
      response whose records are exactly its batch; `None` otherwise. */
  function Replay(fetch: Fetch, c: Client, run: seq<Page>)
    : Option<(Client, seq<Request>)>
    decreases |run|
  {
    if run == [] then Some((c, []))
    else
      var step := fetch(c, run[0].size, run[0].offset);
      if step.result.Err? || DataOrEmpty(step.result.value) != run[0].batch then None
      else
        match Replay(fetch, step.client, run[1..])
        case None => None
        case Some((last, sent)) => Some((last, step.sent + sent))
  }

  /** With the passes `done` made and still short of `limit`, the next pass,
      asked of client `last`, fails with `e`, leaving `client` after sending
      `sent`. */
  ghost predicate NextFails(limit: int, fetch: Fetch, last: Client,
                            done: seq<Page>, e: ApiError, client: Client, sent: seq<Request>)
  {
    && IsPartialTrace(limit, done)
    && |Flatten(done)| < limit
    && var step := fetch(last, Min(BatchSize, limit - |Flatten(done)|), Requested(done));
       step.result == Err(e) && client == step.client && sent == step.sent
  }

  /** The loop entered with `pages` from client `c` made the passes `run` as
      `Replay` says, and its next pass then failed with `e`, leaving `client`
      after sending `sent` in all. */
  ghost predicate FailsAfter(limit: int, fetch: Fetch, c: Client,
                             pages: seq<Page>, run: seq<Page>, e: ApiError, client: Client, sent: seq<Request>)
  {
    && Replay(fetch, c, run).Some?
    && var before := Replay(fetch, c, run).value.1;
       && before <= sent
       && NextFails(limit, fetch, Replay(fetch, c, run).value.0,
                    pages + run, e, client, sent[|before|..])
  }

  /** A pass answered with its batch, followed by passes that replay, replays. */
  lemma {:induction false} PassReplays(fetch: Fetch, c: Client, pages: seq<Page>, page: Page,
                    step: Step<Payload>, r: Step<seq<Page>>)
    requires step == fetch(c, page.size, page.offset)
    requires step.result.Ok? && page.batch == DataOrEmpty(step.result.value)
    requires r.result.Ok? && step.sent <= r.sent && |pages| < |r.result.value| && r.result.value[|pages|] == page
    requires Replay(fetch, step.client, r.result.value[|pages| + 1..]) == Some((r.client, r.sent[|step.sent|..]))
    ensures Replay(fetch, c, r.result.value[|pages|..]) == Some((r.client, r.sent))
  {
    var run := r.result.value[|pages|..];
    assert run[0] == page && run[1..] == r.result.value[|pages| + 1..];
    assert r.sent == step.sent + r.sent[|step.sent|..];
  }

  /** Replaying a pass answered with its batch and then `run`. */
  lemma {:induction false} ReplayCons(fetch: Fetch, c: Client, page: Page, run: seq<Page>)
    requires fetch(c, page.size, page.offset).result.Ok?
    requires page.batch == DataOrEmpty(fetch(c, page.size, page.offset).result.value)
    requires Replay(fetch, fetch(c, page.size, page.offset).client, run).Some?
    ensures var step := fetch(c, page.size, page.offset);
            var tail := Replay(fetch, step.client, run).value;
            Replay(fetch, c, [page] + run) == Some((tail.0, step.sent + tail.1))
  {
    assert ([page] + run)[0] == page && ([page] + run)[1..] == run;
  }

  /** A failure after a pass answered with its batch and then `run` is a
      failure after `[page] + run`. */
  lemma {:induction false} FailsAfterCons(limit: int, fetch: Fetch, c: Client, pages: seq<Page>,
                       page: Page, run: seq<Page>, e: ApiError, client: Client, rest: seq<Request>)
    requires fetch(c, page.size, page.offset).result.Ok?
    requires page.batch == DataOrEmpty(fetch(c, page.size, page.offset).result.value)
    requires FailsAfter(limit, fetch, fetch(c, page.size, page.offset).client,
                        pages + [page], run, e, client, rest)
    ensures FailsAfter(limit, fetch, c, pages, [page] + run, e, client,
                       fetch(c, page.size, page.offset).sent + rest)
  {
    var step := fetch(c, page.size, page.offset);
    var tail := Replay(fetch, step.client, run).value;
    ReplayCons(fetch, c, page, run);
    assert pages + ([page] + run) == pages + [page] + run;
    assert (step.sent + rest)[|step.sent + tail.1|..] == rest[|tail.1|..];
  }

  /** A failure after a pass answered with its batch is a failure after the
      passes that include it. */
  lemma {:induction false} PassFails(limit: int, fetch: Fetch, c: Client, pages: seq<Page>, page: Page,
                  step: Step<Payload>, r: Step<seq<Page>>)
    requires step == fetch(c, page.size, page.offset)
    requires step.result.Ok? && page.batch == DataOrEmpty(step.result.value)
    requires r.result.Err? && step.sent <= r.sent
    requires exists run :: FailsAfter(limit, fetch, step.client, pages + [page], run,
                                      r.result.error, r.client, r.sent[|step.sent|..])
    ensures exists run :: FailsAfter(limit, fetch, c, pages, run, r.result.error, r.client, r.sent)
  {
    var rest := r.sent[|step.sent|..];
    var run :| FailsAfter(limit, fetch, step.client, pages + [page], run, r.result.error, r.client, rest);
    assert r.sent == step.sent + rest;
    FailsAfterCons(limit, fetch, c, pages, page, run, r.result.error, r.client, rest);
  }

  /** A failure of the very next pass is a failure after no further passes. */
  lemma {:induction false} FirstPassFails(limit: int, fetch: Fetch, c: Client, pages: seq<Page>,
                       step: Step<Payload>)
    requires IsPartialTrace(limit, pages) && |Flatten(pages)| < limit
    requires step == fetch(c, Min(BatchSize, limit - |Flatten(pages)|), Requested(pages))
    requires step.result.Err?
    ensures exists run :: FailsAfter(limit, fetch, c, pages, run, step.result.error, step.client, step.sent)
  {
    assert pages + [] == pages;
    assert step.sent[0..] == step.sent;
    assert NextFails(limit, fetch, c, pages, step.result.error, step.client, step.sent);
    assert FailsAfter(limit, fetch, c, pages, [], step.result.error, step.client, step.sent);
  }

  /** The `while len(all_data) < limit` loop, entered with the passes made so
      far: `collected` is `all_data` and `offset` the next offset. Each pass
      asks for `min(1000, limit - len(all_data))` records. */
  function PageLoop(c: Client, limit: int, fetch: Fetch,
                    pages: seq<Page>, collected: seq<Record>, offset: int)
    : (r: Step<seq<Page>>)
    requires IsPartialTrace(limit, pages)
    requires collected == Flatten(pages) && offset == Requested(pages)
    ensures r.result.Ok? ==> pages <= r.result.value && IsLoopTrace(limit, r.result.value)
    // the passes it adds are those `fetch` answers, from the client each pass leaves
    ensures r.result.Ok? ==> Replay(fetch, c, r.result.value[|pages|..]) == Some((r.client, r.sent))
    // an error is that of the first pass that fails, after passes that were answered
    ensures r.result.Err? ==>
              exists run :: FailsAfter(limit, fetch, c, pages, run, r.result.error, r.client, r.sent)
    decreases limit - |collected|, 1
  {
    if |collected| >= limit then
      LimitReached(limit, pages);
      assert pages[|pages|..] == [];
      Step(Ok(pages), c, [])
    else
      var size := Min(BatchSize, limit - |collected|);
      var step := fetch(c, size, offset);
      var r := AfterPass(step, limit, fetch, pages, collected, offset);
      if step.result.Err? then
        FirstPassFails(limit, fetch, c, pages, step);
        r
      else
        var page := Page(size, offset, DataOrEmpty(step.result.value));
        if r.result.Ok? then
          PassReplays(fetch, c, pages, page, step, r);
          r
        else
          PassFails(limit, fetch, c, pages, page, step, r);
          r
  }

  /** The rest of the loop once a pass has had its answer `step`: a failed
      request is raised, an empty batch stops the loop, a full one is added
      and advances the offset by the size asked for, and a short one is added
      and stops it. */
  function AfterPass(step: Step<Payload>, limit: int, fetch: Fetch,
                     pages: seq<Page>, collected: seq<Record>, offset: int)
    : (r: Step<seq<Page>>)
    requires IsPartialTrace(limit, pages)
    requires collected == Flatten(pages) && offset == Requested(pages)
    requires |collected| < limit
    ensures r.result.Ok? ==> pages <= r.result.value && IsLoopTrace(limit, r.result.value)
    // a failed request is raised as it is
    ensures step.result.Err? ==> r == Step(Err(step.result.error), step.client, step.sent)
    // an empty or short batch is added and ends the loop
    ensures step.result.Ok? ==>
              var page := Page(Min(BatchSize, limit - |collected|), offset, DataOrEmpty(step.result.value));
              !Continued(page) ==> r == Step(Ok(pages + [page]), step.client, step.sent)
    // whatever follows a full batch is what `fetch` answers from the client it left
    ensures r.result.Ok? ==>
              && step.result.Ok?
              && step.sent <= r.sent && |pages| < |r.result.value|
              && r.result.value[|pages|] == Page(Min(BatchSize, limit - |collected|), offset, DataOrEmpty(step.result.value))
              && Replay(fetch, step.client, r.result.value[|pages| + 1..]) == Some((r.client, r.sent[|step.sent|..]))
    ensures r.result.Err? && step.result.Ok? ==>
              var page := Page(Min(BatchSize, limit - |collected|), offset, DataOrEmpty(step.result.value));
              && step.sent <= r.sent
              && exists run :: FailsAfter(limit, fetch, step.client, pages + [page], run,
                                          r.result.error, r.client, r.sent[|step.sent|..])
    decreases limit - |collected|, 0
  {
    var size := Min(BatchSize, limit - |collected|);
    match step.result
    case Err(e) => Step(Err(e), step.client, step.sent)
    case Ok(response) =>
      var batch := DataOrEmpty(response);
      var page := Page(size, offset, batch);
      AppendPage(limit, pages, page);
      if batch == [] || |batch| < size then
        assert (pages + [page])[|pages| + 1..] == [];
        assert step.sent[|step.sent|..] == [];
        Step(Ok(pages + [page]), step.client, step.sent)
      else
        var rest := PageLoop(step.client, limit, fetch, pages + [page], collected + batch, offset + size);
        var r := Step(rest.result, rest.client, step.sent + rest.sent);
        assert r.sent[|step.sent|..] == rest.sent;
        r
  }

  /** Once `limit` records are held the loop makes no further request. */
  lemma PageLoopDone(c: Client, limit: int, fetch: Fetch,
                     pages: seq<Page>, collected: seq<Record>, offset: int)
    requires IsPartialTrace(limit, pages)
    requires collected == Flatten(pages) && offset == Requested(pages)
    requires |collected| >= limit
    ensures PageLoop(c, limit, fetch, pages, collected, offset) == Step(Ok(pages), c, [])
  {
  }

  /** Before `limit` records are held the loop makes one more pass, asking
      for what is still missing, capped at 1000. */
  lemma PageLoopPass(c: Client, limit: int, fetch: Fetch,
                     pages: seq<Page>, collected: seq<Record>, offset: int, size: int)
    requires IsPartialTrace(limit, pages)
    requires collected == Flatten(pages) && offset == Requested(pages)
    requires |collected| < limit
    requires size == Min(BatchSize, limit - |collected|)
    ensures PageLoop(c, limit, fetch, pages, collected, offset)
              == AfterPass(fetch(c, size, offset), limit, fetch,
                           pages, collected, offset)
  {
  }

  /** A pass whose batch comes back full hands over to the next pass, which
      starts from the passes so far plus this one. */
  lemma PageLoopContinues(step: Step<Payload>, limit: int, fetch: Fetch,
                          pages: seq<Page>, collected: seq<Record>, offset: int)
    requires IsPartialTrace(limit, pages)
    requires collected == Flatten(pages) && offset == Requested(pages)
    requires |collected| < limit
    requires step.result.Ok? && |DataOrEmpty(step.result.value)| >= Min(BatchSize, limit - |collected|)
    ensures var size := Min(BatchSize, limit - |collected|);
            var page := Page(size, offset, DataOrEmpty(step.result.value));
            && IsPartialTrace(limit, pages + [page])
            && collected + page.batch == Flatten(pages + [page])
            && offset + size == Requested(pages + [page])
            && var rest := PageLoop(step.client, limit, fetch,
                                    pages + [page], collected + page.batch, offset + size);
               AfterPass(step, limit, fetch, pages, collected, offset)
                 == Step(rest.result, rest.client, step.sent + rest.sent)
  {
    var size := Min(BatchSize, limit - |collected|);
    var page := Page(size, offset, DataOrEmpty(step.result.value));
    assert Continued(page);
    AppendPage(limit, pages, page);
    var rest := PageLoop(step.client, limit, fetch,
                         pages + [page], collected + page.batch, offset + size);
    assert AfterPass(step, limit, fetch, pages, collected, offset)
             == Step(rest.result, rest.client, step.sent + rest.sent);
  }

  /** What `get_all_daily_data` returns: the first response as it came, or
      the dict the paginated path builds (`cached`, `data`, `pagination.limit`,
      `pagination.offset`, `meta.total_fetched`, `meta.paginated`). */
  datatype DailyResult =
    | AsReceived(response: Payload)
    | Paginated(cached: bool, data: seq<Record>, limit: int, offset: int, totalFetched: int, paginated: bool)

  /** The records a result carries. */
  function ResultData(d: DailyResult): seq<Record> {
    match d
    case AsReceived(response) => DataOrEmpty(response)
    case Paginated(_, data, _, _, _, _) => data
  }

  /** The dict built from the passes: the collected records cut to `limit`. */
  function PaginatedResult(limit: int, pages: seq<Page>): (r: DailyResult)
    ensures r.Paginated? && !r.cached && r.paginated && r.limit == limit && r.offset == 0
    ensures r.totalFetched == |Flatten(pages)|
    ensures r.data <= Flatten(pages)
    ensures limit >= 0 ==> |r.data| == Min(limit, |Flatten(pages)|)
  {
    var all := Flatten(pages);
    Paginated(false, PyPrefix(all, limit), limit, 0, |all|, true)
  }

  /** No pass is made unless `limit` is positive. */
  lemma LoopTraceNeedsPositiveLimit(limit: int, pages: seq<Page>)
    requires IsLoopTrace(limit, pages)
    ensures pages != [] ==> limit > 0
  {
    if pages != [] {
      assert WellRequested(limit, pages, 0);
    }
  }

  /** `_get_all_daily_data_paginated(limit, exchange, symbol)` */
  function GetPaginated(c: Client, limit: int, exchange: string, symbol: string, now: real,
                        server: Request -> Reply): (r: Step<DailyResult>)
    // the dict is built from the passes of a finished loop, each answered by
    // `_get` from the client the pass before it left
    ensures r.result.Ok? ==>
              exists pages :: && IsLoopTrace(limit, pages)
                              && r.result.value == PaginatedResult(limit, pages)
                              && Replay(DailyFetch(now, server, exchange, symbol), c, pages) == Some((r.client, r.sent))
    // an error is that of the first pass that fails, raised as it is
    ensures r.result.Err? ==>
              exists run :: FailsAfter(limit, DailyFetch(now, server, exchange, symbol), c, [], run,
                                       r.result.error, r.client, r.sent)
    ensures r.result.Ok? ==> r.result.value.Paginated? && r.result.value.paginated && !r.result.value.cached
    ensures r.result.Ok? ==> |r.result.value.data| <= Max(0, limit)
    ensures r.result.Ok? ==> |r.result.value.data| <= r.result.value.totalFetched
  {
    var loop := PageLoop(c, limit, DailyFetch(now, server, exchange, symbol), [], [], 0);
    match loop.result
    case Err(e) => Step(Err(e), loop.client, loop.sent)
    case Ok(pages) =>
      LoopTraceNeedsPositiveLimit(limit, pages);
      assert pages[0..] == pages;
      Step(Ok(PaginatedResult(limit, pages)), loop.client, loop.sent)
  }

  /** The rest of `get_all_daily_data` once the first answer was full: one
      probe for the record at position `at` decides between that answer and
      the paginated path. */
  function ProbeOrPaginate(c: Client, response: Payload, sent: seq<Request>, limit: int, at: int,
                           exchange: string, symbol: string, now: real,
                           server: Request -> Reply): (r: Step<DailyResult>)
    // whatever is returned unpaginated is the first answer, unchanged
    ensures r.result.Ok? && r.result.value.AsReceived? ==> r.result.value.response == response
    // the paginated path is taken only after a non-empty probe
    ensures var probe := Get(c, DailyEndpoint, ProbeParams(limit, at, exchange, symbol), now, server);
            r.result.Ok? && r.result.value.Paginated? ==>
              && probe.result.Ok? && DataOrEmpty(probe.result.value) != []
              && |r.result.value.data| <= Max(0, limit)
    // a failed probe is raised as it is
    ensures var probe := Get(c, DailyEndpoint, ProbeParams(limit, at, exchange, symbol), now, server);
            probe.result.Err? ==> r == Step(Err(probe.result.error), probe.client, sent + probe.sent)
    // an empty probe returns the first answer, after the probe and nothing else
    ensures var probe := Get(c, DailyEndpoint, ProbeParams(limit, at, exchange, symbol), now, server);
            probe.result.Ok? && DataOrEmpty(probe.result.value) == [] ==>
              r == Step(Ok(AsReceived(response)), probe.client, sent + probe.sent)
    // a non-empty probe hands over to the paginated path, from the client the probe left
    ensures var probe := Get(c, DailyEndpoint, ProbeParams(limit, at, exchange, symbol), now, server);
            probe.result.Ok? && DataOrEmpty(probe.result.value) != [] ==>
              var rest := GetPaginated(probe.client, limit, exchange, symbol, now, server);
              r == Step(rest.result, rest.client, sent + probe.sent + rest.sent)
  {
    var probe := Get(c, DailyEndpoint, ProbeParams(limit, at, exchange, symbol), now, server);
    match probe.result
    case Err(e) => Step(Err(e), probe.client, sent + probe.sent)
    case Ok(next) =>
      if DataOrEmpty(next) != [] then
        var rest := GetPaginated(probe.client, limit, exchange, symbol, now, server);
        Step(rest.result, rest.client, sent + probe.sent + rest.sent)
      else
        Step(Ok(AsReceived(response)), probe.client, sent + probe.sent)
  }

  /** `get_all_daily_data(limit, exchange, symbol)` */
  function GetAllDailyData(c: Client, limit: int, exchange: string, symbol: string, now: real,
                           server: Request -> Reply): (r: Step<DailyResult>)
    // a failed first request is raised and nothing else is asked
    ensures var first := Get(c, DailyEndpoint, DailyParams(limit, exchange, symbol), now, server);
            first.result.Err? ==> r == Step(Err(first.result.error), first.client, first.sent)
    // whatever is returned unpaginated is the first answer, unchanged
    ensures var first := Get(c, DailyEndpoint, DailyParams(limit, exchange, symbol), now, server);
            r.result.Ok? && r.result.value.AsReceived? ==> first.result == Ok(r.result.value.response)
    // the paginated path is taken only after a full first answer
    ensures var first := Get(c, DailyEndpoint, DailyParams(limit, exchange, symbol), now, server);
            r.result.Ok? && r.result.value.Paginated? ==>
              first.result.Ok? && |DataOrEmpty(first.result.value)| >= limit
  {
    var first := Get(c, DailyEndpoint, DailyParams(limit, exchange, symbol), now, server);
    match first.result
    case Err(e) => Step(Err(e), first.client, first.sent)
    case Ok(response) =>
      if |DataOrEmpty(response)| < limit then
        Step(Ok(AsReceived(response)), first.client, first.sent)
      else
        ProbeOrPaginate(first.client, response, first.sent, limit, limit, exchange, symbol, now, server)
  }

  /** A first answer with fewer than `limit` records is returned as it came,
      and no probe is sent. */
  lemma ShortFirstAnswer(c: Client, limit: int, exchange: string, symbol: string, now: real,
                         server: Request -> Reply)
    requires var first := Get(c, DailyEndpoint, DailyParams(limit, exchange, symbol), now, server);
             first.result.Ok? && |DataOrEmpty(first.result.value)| < limit
    ensures var first := Get(c, DailyEndpoint, DailyParams(limit, exchange, symbol), now, server);
            GetAllDailyData(c, limit, exchange, symbol, now, server)
              == Step(Ok(AsReceived(first.result.value)), first.client, first.sent)
  {
  }

  /** An empty probe returns the first answer as it came, after the first
      request and the probe and nothing else. */
  lemma EmptyProbe(c: Client, limit: int, exchange: string, symbol: string, now: real,
                   server: Request -> Reply)
    requires var first := Get(c, DailyEndpoint, DailyParams(limit, exchange, symbol), now, server);
             && first.result.Ok? && |DataOrEmpty(first.result.value)| >= limit
             && var probe := Get(first.client, DailyEndpoint, ProbeParams(limit, limit, exchange, symbol), now, server);
                probe.result.Ok? && DataOrEmpty(probe.result.value) == []
    ensures var first := Get(c, DailyEndpoint, DailyParams(limit, exchange, symbol), now, server);
            var probe := Get(first.client, DailyEndpoint, ProbeParams(limit, limit, exchange, symbol), now, server);
            GetAllDailyData(c, limit, exchange, symbol, now, server)
              == Step(Ok(AsReceived(first.result.value)), probe.client, first.sent + probe.sent)
  {
    var first := Get(c, DailyEndpoint, DailyParams(limit, exchange, symbol), now, server);
    assert GetAllDailyData(c, limit, exchange, symbol, now, server)
             == ProbeOrPaginate(first.client, first.result.value, first.sent, limit, limit, exchange, symbol, now, server);
  }

  /** A failed probe after a full first answer is raised: the error, the
      client the probe left, and the first request and the probe. */
  lemma FailedProbe(c: Client, limit: int, exchange: string, symbol: string, now: real,
                    server: Request -> Reply)
    requires var first := Get(c, DailyEndpoint, DailyParams(limit, exchange, symbol), now, server);
             && first.result.Ok? && |DataOrEmpty(first.result.value)| >= limit
             && Get(first.client, DailyEndpoint, ProbeParams(limit, limit, exchange, symbol), now, server).result.Err?
    ensures var first := Get(c, DailyEndpoint, DailyParams(limit, exchange, symbol), now, server);
            var probe := Get(first.client, DailyEndpoint, ProbeParams(limit, limit, exchange, symbol), now, server);
            GetAllDailyData(c, limit, exchange, symbol, now, server)
              == Step(Err(probe.result.error), probe.client, first.sent + probe.sent)
  {
    var first := Get(c, DailyEndpoint, DailyParams(limit, exchange, symbol), now, server);
    assert GetAllDailyData(c, limit, exchange, symbol, now, server)
             == ProbeOrPaginate(first.client, first.result.value, first.sent, limit, limit, exchange, symbol, now, server);
  }

  /** A non-empty probe after a full first answer hands over to the
      paginated path: its result and client are those of the loop started from
      the client the probe left, after the first request, the probe and the
      loop's own requests. */
  lemma NonEmptyProbe(c: Client, limit: int, exchange: string, symbol: string, now: real,
                      server: Request -> Reply)
    requires var first := Get(c, DailyEndpoint, DailyParams(limit, exchange, symbol), now, server);
             && first.result.Ok? && |DataOrEmpty(first.result.value)| >= limit
             && var probe := Get(first.client, DailyEndpoint, ProbeParams(limit, limit, exchange, symbol), now, server);
                probe.result.Ok? && DataOrEmpty(probe.result.value) != []
    ensures var first := Get(c, DailyEndpoint, DailyParams(limit, exchange, symbol), now, server);
            var probe := Get(first.client, DailyEndpoint, ProbeParams(limit, limit, exchange, symbol), now, server);
            var rest := GetPaginated(probe.client, limit, exchange, symbol, now, server);
            GetAllDailyData(c, limit, exchange, symbol, now, server)
              == Step(rest.result, rest.client, first.sent + probe.sent + rest.sent)
  {
    var first := Get(c, DailyEndpoint, DailyParams(limit, exchange, symbol), now, server);
    assert GetAllDailyData(c, limit, exchange, symbol, now, server)
             == ProbeOrPaginate(first.client, first.result.value, first.sent, limit, limit, exchange, symbol, now, server);
  }

  /** `get_all_daily_data` as evidently intended, given that the server
      sends at most `BatchSize` records per request: a first answer is taken
      as complete only when it holds fewer than `Min(limit, BatchSize)`
      records, and otherwise the probe asks for the record just after those
      it holds rather than the one at `limit`. */
  function GetAllDailyDataFixed(c: Client, limit: int, exchange: string, symbol: string, now: real,
                                server: Request -> Reply): (r: Step<DailyResult>)
    // a failed first request is raised and nothing else is asked
    ensures var first := Get(c, DailyEndpoint, DailyParams(limit, exchange, symbol), now, server);
            first.result.Err? ==> r == Step(Err(first.result.error), first.client, first.sent)
    // an answer short of both `limit` and the cap is returned, and no probe is sent
    ensures var first := Get(c, DailyEndpoint, DailyParams(limit, exchange, symbol), now, server);
            first.result.Ok? && |DataOrEmpty(first.result.value)| < Min(limit, BatchSize) ==>
              r == Step(Ok(AsReceived(first.result.value)), first.client, first.sent)
    // otherwise the probe is at the position after the records held
    ensures var first := Get(c, DailyEndpoint, DailyParams(limit, exchange, symbol), now, server);
            first.result.Ok? && |DataOrEmpty(first.result.value)| >= Min(limit, BatchSize) ==>
              var held := |DataOrEmpty(first.result.value)|;
              r == ProbeOrPaginate(first.client, first.result.value, first.sent, limit, held,
                                   exchange, symbol, now, server)
    // whatever is returned unpaginated is the first answer, unchanged
    ensures var first := Get(c, DailyEndpoint, DailyParams(limit, exchange, symbol), now, server);
            r.result.Ok? && r.result.value.AsReceived? ==> first.result == Ok(r.result.value.response)
  {
    var first := Get(c, DailyEndpoint, DailyParams(limit, exchange, symbol), now, server);
    match first.result
    case Err(e) => Step(Err(e), first.client, first.sent)
    case Ok(response) =>
      var held := |DataOrEmpty(response)|;
      if held < Min(limit, BatchSize) then
        Step(Ok(AsReceived(response)), first.client, first.sent)
      else
        ProbeOrPaginate(first.client, response, first.sent, limit, held, exchange, symbol, now, server)
  }

  /** The correction changes nothing for a `limit` of at most `BatchSize`
      when the first answer holds no more than `limit` records. */
  lemma FixedAgreesWithinBatch(c: Client, limit: int, exchange: string, symbol: string, now: real,
                               server: Request -> Reply)
    requires limit <= BatchSize
    requires var first := Get(c, DailyEndpoint, DailyParams(limit, exchange, symbol), now, server);
             first.result.Ok? ==> |DataOrEmpty(first.result.value)| <= limit
    ensures GetAllDailyDataFixed(c, limit, exchange, symbol, now, server)
              == GetAllDailyData(c, limit, exchange, symbol, now, server)
  {
    var first := Get(c, DailyEndpoint, DailyParams(limit, exchange, symbol), now, server);
    if first.result.Ok? {
      var held := |DataOrEmpty(first.result.value)|;
      assert Min(limit, BatchSize) == limit;
      if held < limit {
        ShortFirstAnswer(c, limit, exchange, symbol, now, server);
      } else {
        assert held == limit;
        FullFirstAnswer(c, limit, exchange, symbol, now, server);
      }
    }
  }

  /** A first answer of at least `limit` records goes on to the probe at
      `limit`. */
  lemma FullFirstAnswer(c: Client, limit: int, exchange: string, symbol: string, now: real,
                        server: Request -> Reply)
    requires var first := Get(c, DailyEndpoint, DailyParams(limit, exchange, symbol), now, server);
             first.result.Ok? && |DataOrEmpty(first.result.value)| >= limit
    ensures var first := Get(c, DailyEndpoint, DailyParams(limit, exchange, symbol), now, server);
            GetAllDailyData(c, limit, exchange, symbol, now, server)
              == ProbeOrPaginate(first.client, first.result.value, first.sent, limit, limit, exchange, symbol, now, server)
  {
  }

  /** In the corrected fetch a first answer of at least `Min(limit, BatchSize)`
      records goes on to the probe just after them. */
  lemma FixedFullAnswer(c: Client, limit: int, exchange: string, symbol: string, now: real,
                        server: Request -> Reply)
    requires var first := Get(c, DailyEndpoint, DailyParams(limit, exchange, symbol), now, server);
             first.result.Ok? && |DataOrEmpty(first.result.value)| >= Min(limit, BatchSize)
    ensures var first := Get(c, DailyEndpoint, DailyParams(limit, exchange, symbol), now, server);
            GetAllDailyDataFixed(c, limit, exchange, symbol, now, server)
              == ProbeOrPaginate(first.client, first.result.value, first.sent, limit,
                                 |DataOrEmpty(first.result.value)|, exchange, symbol, now, server)
  {
  }

  /** Every pass of the loop asks for at least 1 and at most 1000 records, and
      each offset is the previous offset plus the size asked for before, even
      when fewer records came back. */
  lemma LoopTraceRequests(limit: int, pages: seq<Page>)
    requires IsLoopTrace(limit, pages)
    ensures forall i :: 0 <= i < |pages| ==> 1 <= pages[i].size <= BatchSize
    ensures |pages| > 0 ==> pages[0].offset == 0
    ensures forall i :: 0 <= i < |pages| - 1 ==> pages[i + 1].offset == pages[i].offset + pages[i].size
  {
    forall i | 0 <= i < |pages| ensures 1 <= pages[i].size <= BatchSize {
      assert WellRequested(limit, pages, i);
    }
    if |pages| > 0 {
      assert WellRequested(limit, pages, 0);
    }
    forall i | 0 <= i < |pages| - 1 ensures pages[i + 1].offset == pages[i].offset + pages[i].size {
      assert WellRequested(limit, pages, i);
      assert WellRequested(limit, pages, i + 1);
      assert pages[..i + 1][..i] == pages[..i];
    }
  }

  /** When no batch is longer than asked for, the loop never collects more than
      `limit` records, so nothing is cut off: the data is everything fetched. */
  lemma NoOverDeliveryNoTruncation(limit: int, pages: seq<Page>)
    requires IsLoopTrace(limit, pages)
    requires forall i :: 0 <= i < |pages| ==> |pages[i].batch| <= pages[i].size
    ensures |Flatten(pages)| <= Max(0, limit)
    ensures PaginatedResult(limit, pages).data == Flatten(pages)
    ensures PaginatedResult(limit, pages).totalFetched == |PaginatedResult(limit, pages).data|
  {
    if pages != [] {
      var n := |pages|;
      assert WellRequested(limit, pages, n - 1);
    }
  }
}

=== FILE: dataset_server.dfy ===
/** A model of the remote API's daily-history endpoint: a server holding one
    fixed dataset (the records that match the request's filters, in the
    server's order) that answers a daily-history request for `limit` records
    at `offset` with the records at positions `offset` to `offset + limit - 1`
    that exist, but never more than `cap` records at once (the API's maximum
    per request). What it answers on the other endpoints is left open.

    Against such a server, and a cache whose daily-history entries hold only
    what that server says, `get_all_daily_data` retrieves exactly the first
    `limit` records when `limit` is within the cap, and only the first `cap`
    of them when `limit` and the dataset are both larger. The corrected
    fetch retrieves the first `limit` records whatever `limit` is, as long
    as the cap is at least the loop's batch size. */
module DatasetServer {
  import opened Results
  import Text
  import opened ApiClient
  import opened BulkHistory
  import SymbolResolver

  /** An integer parameter as the server reads it from the wire; `default`
      when it is missing or not a number. */
  function IntParam(query: seq<(string, string)>, name: string, default: int): int {
    match Lookup(query, name)
    case None => default
    case Some(t) => Text.ParseInt(t).GetOr(default)
  }

  /** The records of `data` at positions `offset` to `offset + limit - 1`
      that exist. */
  function Window(data: seq<Record>, offset: int, limit: int): (r: seq<Record>)
    ensures 0 <= offset && 0 <= limit && offset + limit <= |data| ==> r == data[offset..offset + limit]
    ensures 0 <= offset <= |data| ==> r == data[offset..Max(offset, Min(offset + limit, |data|))]
    ensures offset < 0 ==> r == data[..Max(0, Min(offset + limit, |data|))]
    ensures offset >= |data| ==> r == []
  {
    var lo := Min(Max(offset, 0), |data|);
    var hi := Max(lo, Min(offset + limit, |data|));
    data[lo..hi]
  }

  /** The body the server sends: the window the query asks for (by default
      from the start, to the end), cut to at most `cap` records. */
  function DatasetBody(data: seq<Record>, query: seq<(string, string)>, cap: int): Payload {
    Payload(Some(Window(data, IntParam(query, "offset", 0), Min(IntParam(query, "limit", |data|), cap))), map[])
  }

  /** A request for the daily-history endpoint, on whatever base URL. */
  predicate ForDaily(q: Request) {
    |DailyEndpoint| <= |q.url| && q.url[|q.url| - |DailyEndpoint|..] == DailyEndpoint
  }

  /** A server holding the dataset and sending at most `cap` records per
      request (at least one): every daily-history request succeeds with
      status 200 and the window its query asks for, cut to the cap. Requests
      for the other endpoints may get any reply. */
  ghost predicate ServesDataset(server: Request -> Reply, data: seq<Record>, cap: int) {
    && 1 <= cap
    && forall q: Request {:trigger ForDaily(q)} :: ForDaily(q) ==> server(q) == Reply(200, DatasetBody(data, q.query, cap))
  }

  /** One such server: it answers every request that way. */
  function Serve(data: seq<Record>, cap: int): (server: Request -> Reply)
    requires 1 <= cap
    ensures ServesDataset(server, data, cap)
  {
    (req: Request) => Reply(200, DatasetBody(data, req.query, cap))
  }

  /** Every daily-history entry of the cache holds what the server answers to
      the parameters its key records. Entries for the other endpoints (the
      alias, registry and latest-data answers) may hold anything. */
  ghost predicate CacheMatches(cache: map<string, CacheEntry>, data: seq<Record>, cap: int) {
    forall key :: key in cache && DecodeCacheKey(key).Some? && DecodeCacheKey(key).value.0 == DailyEndpoint ==>
      cache[key].payload == DatasetBody(data, DecodeCacheKey(key).value.1, cap)
  }

  /** On the wire a parameter carries the text of its value. */
  lemma {:induction false} LookupRender(p: Params, k: string)
    ensures Lookup(Render(p), k) == match Lookup(p, k) case None => None case Some(v) => Some(ValueText(v))
  {
    if p != [] && p[0].0 != k {
      assert Render(p)[1..] == Render(p[1..]);
      LookupRender(p[1..], k);
    }
  }

  /** The server reads back an int parameter the client set. */
  lemma WireInt(p: Params, name: string, v: int, default: int)
    requires Lookup(p, name) == Some(IntVal(v))
    ensures IntParam(Render(p), name, default) == v
  {
    LookupRender(p, name);
    Text.ParseIntToString(v);
  }

  /** A parameter the client did not set is read as its default. */
  lemma WireAbsent(p: Params, name: string, default: int)
    requires Lookup(p, name) == None
    ensures IntParam(Render(p), name, default) == default
  {
    LookupRender(p, name);
  }

  /** Wire parameters with the same pairs get the same answer. */
  lemma DatasetBodyByItems(data: seq<Record>, cap: int, q1: seq<(string, string)>, q2: seq<(string, string)>)
    requires DistinctKeys(q1) && DistinctKeys(q2)
    requires SameItems(q1, q2)
    ensures DatasetBody(data, q1, cap) == DatasetBody(data, q2, cap)
  {
    forall k | k == "offset" || k == "limit" ensures Lookup(q1, k) == Lookup(q2, k) {
      match Lookup(q1, k)
      case None =>
        assert Lookup(q2, k).None?;
      case Some(v) =>
        LookupIffListed(q1, k, v);
        LookupIffListed(q2, k, v);
    }
  }

  /** The server gives the same answer to the parameters in cache-key order
      as in dict order. */
  lemma DatasetBodySorted(data: seq<Record>, cap: int, p: Params)
    requires DistinctKeys(p)
    ensures DatasetBody(data, SortByKey(Render(p)), cap) == DatasetBody(data, Render(p), cap)
  {
    var q := Render(p);
    var s := SortByKey(q);
    SortByKeySorted(q);
    forall i, j | 0 <= i < j < |s| ensures s[i].0 != s[j].0 {
      Text.StrLessTotal(s[i].0, s[j].0);
    }
    SortByKeySameItems(q);
    DatasetBodyByItems(data, cap, s, q);
  }

  /** Against the dataset server, a daily-history `_get` of a consistent
      cache returns what the server says for these parameters, hit or miss,
      and leaves the cache consistent. */
  lemma GetFromDataset(c: Client, p: Params, now: real, server: Request -> Reply, data: seq<Record>, cap: int)
    requires ServesDataset(server, data, cap)
    requires CacheMatches(c.cache, data, cap)
    requires DistinctKeys(p)
    ensures Get(c, DailyEndpoint, p, now, server).result == Ok(DatasetBody(data, Render(p), cap))
    ensures CacheMatches(Get(c, DailyEndpoint, p, now, server).client.cache, data, cap)
  {
    var key := CacheKey(DailyEndpoint, p);
    DatasetBodySorted(data, cap, p);
    if !IsCacheValid(c.cache, key, now) {
      var req := RequestFor(c, DailyEndpoint, p);
      assert ForDaily(req) by {
        assert req.url[|req.url| - |DailyEndpoint|..] == DailyEndpoint;
      }
      var cache' := Get(c, DailyEndpoint, p, now, server).client.cache;
      assert cache' == c.cache[key := CacheEntry(now, DatasetBody(data, Render(p), cap))];
    }
  }

  /** A `_get` for any other endpoint keeps the cache consistent, whatever
      the server answers it. */
  lemma GetElsewhere(c: Client, endpoint: string, p: Params, now: real, server: Request -> Reply,
                     data: seq<Record>, cap: int)
    requires endpoint != DailyEndpoint
    requires CacheMatches(c.cache, data, cap)
    ensures CacheMatches(Get(c, endpoint, p, now, server).client.cache, data, cap)
  {
  }

  lemma PrefixExtend<T>(s: seq<T>, i: int, n: int)
    requires 0 <= i && 0 <= n && i + n <= |s|
    ensures s[..i] + s[i..i + n] == s[..i + n]
  {
  }

  /** The server's answer to a page request within the cap is the window it
      asks for. */
  lemma BatchBody(size: int, offset: int, exchange: string, symbol: string, data: seq<Record>, cap: int)
    requires 0 <= offset && 0 <= size <= cap
    ensures DatasetBody(data, Render(BatchParams(size, offset, exchange, symbol)), cap)
              == Payload(Some(Window(data, offset, size)), map[])
  {
    var params := BatchParams(size, offset, exchange, symbol);
    WireInt(params, "offset", offset, 0);
    WireInt(params, "limit", size, |data|);
  }

  /** One page request within the cap comes back as the window it asks for. */
  lemma DatasetBatch(c: Client, size: int, offset: int, exchange: string, symbol: string, now: real,
                     server: Request -> Reply, data: seq<Record>, cap: int)
    requires ServesDataset(server, data, cap)
    requires CacheMatches(c.cache, data, cap)
    requires 0 <= offset && 0 <= size <= cap
    ensures Get(c, DailyEndpoint, BatchParams(size, offset, exchange, symbol), now, server).result
              == Ok(Payload(Some(Window(data, offset, size)), map[]))
    ensures CacheMatches(Get(c, DailyEndpoint, BatchParams(size, offset, exchange, symbol), now, server).client.cache,
                         data, cap)
  {
    BatchBody(size, offset, exchange, symbol, data, cap);
    GetFromDataset(c, BatchParams(size, offset, exchange, symbol), now, server, data, cap);
  }

  /** A way of sending the loop's passes that, from a cache matching the
      dataset, answers every page request within the cap with exactly the
      window it asks for and leaves the cache matching. */
  ghost predicate ServesPages(fetch: Fetch, data: seq<Record>, cap: int) {
    forall c: Client, size: int, offset: int :: ServesPage(fetch, data, cap, c, size, offset)
  }

  /** From a cache matching the dataset, a page request within the cap comes
      back as exactly the window it asks for and leaves the cache matching. */
  ghost predicate ServesPage(fetch: Fetch, data: seq<Record>, cap: int, c: Client, size: int, offset: int) {
    CacheMatches(c.cache, data, cap) && 0 <= offset && 0 <= size <= cap ==>
      && fetch(c, size, offset).result == Ok(Payload(Some(Window(data, offset, size)), map[]))
      && CacheMatches(fetch(c, size, offset).client.cache, data, cap)
  }

  /** `_get` against the dataset server sends the loop's passes that way. */
  lemma DailyFetchServesPages(now: real, server: Request -> Reply, exchange: string, symbol: string,
                              data: seq<Record>, cap: int)
    requires ServesDataset(server, data, cap)
    ensures ServesPages(DailyFetch(now, server, exchange, symbol), data, cap)
  {
    forall c: Client, size: int, offset: int
      ensures ServesPage(DailyFetch(now, server, exchange, symbol), data, cap, c, size, offset)
    {
      if CacheMatches(c.cache, data, cap) && 0 <= offset && 0 <= size <= cap {
        DatasetBatch(c, size, offset, exchange, symbol, now, server, data, cap);
      }
    }
  }

  /** The state of the pagination loop against the dataset server after the
      given passes: the first `offset` records are held, every pass asks for
      no more than the cap, and the cache still matches the dataset. */
  ghost predicate LoopAt(c: Client, limit: int, data: seq<Record>, cap: int, pages: seq<Page>, offset: int) {
    && 0 <= offset <= limit && offset <= |data|
    && Min(BatchSize, limit) <= cap
    && IsPartialTrace(limit, pages)
    && Flatten(pages) == data[..offset] && offset == Requested(pages)
    && CacheMatches(c.cache, data, cap)
  }

  /** The loop ended without error holding exactly the first `limit` records
      (all of them when there are fewer), and the cache still matches the
      dataset. */
  ghost predicate Delivers(r: Step<seq<Page>>, limit: int, data: seq<Record>, cap: int) {
    && r.result.Ok?
    && 0 <= limit
    && Flatten(r.result.value) == data[..Min(limit, |data|)]
    && CacheMatches(r.client.cache, data, cap)
  }

  /** One pass of the pagination loop against the dataset server, before the
      limit is reached: the batch comes back full, and the whole loop
      delivers what the rest of it delivers, or it comes back short and ends
      the loop holding the whole dataset. */
  lemma {:induction false} DatasetStep(c: Client, limit: int, fetch: Fetch,
                                       data: seq<Record>, cap: int, pages: seq<Page>, offset: int)
    requires ServesPages(fetch, data, cap)
    requires LoopAt(c, limit, data, cap, pages, offset) && offset < limit
    ensures Delivers(PageLoop(c, limit, fetch, pages, data[..offset], offset), limit, data, cap)
    decreases limit - offset, 1
  {
    var size := Min(BatchSize, limit - offset);
    PageLoopPass(c, limit, fetch, pages, data[..offset], offset, size);
    var step := fetch(c, size, offset);
    DatasetFetch(c, limit, fetch, data, cap, pages, offset);
    if offset + size <= |data| {
      DatasetAfterPass(step, limit, fetch, data, cap, pages, offset);
    } else {
      DatasetShortPass(step, limit, fetch, data, cap, pages, offset);
    }
  }

  /** The next pass's request to the dataset server comes back as the window
      it asks for, and the loop state carries over to the client after it. */
  lemma DatasetFetch(c: Client, limit: int, fetch: Fetch,
                     data: seq<Record>, cap: int, pages: seq<Page>, offset: int)
    requires ServesPages(fetch, data, cap)
    requires LoopAt(c, limit, data, cap, pages, offset) && offset < limit
    ensures var size := Min(BatchSize, limit - offset);
            var step := fetch(c, size, offset);
            && step.result == Ok(Payload(Some(Window(data, offset, size)), map[]))
            && LoopAt(step.client, limit, data, cap, pages, offset)
  {
    assert Min(BatchSize, limit - offset) <= Min(BatchSize, limit);
    assert ServesPage(fetch, data, cap, c, Min(BatchSize, limit - offset), offset);
  }

  /** A batch that runs past the end of the dataset is short: it ends the
      loop, holding the whole dataset. */
  lemma DatasetShortPass(step: Step<Payload>, limit: int, fetch: Fetch, data: seq<Record>, cap: int,
                         pages: seq<Page>, offset: int)
    requires LoopAt(step.client, limit, data, cap, pages, offset)
    requires offset < limit && |data| < offset + Min(BatchSize, limit - offset)
    requires step.result == Ok(Payload(Some(Window(data, offset, Min(BatchSize, limit - offset))), map[]))
    ensures Delivers(AfterPass(step, limit, fetch, pages, data[..offset], offset), limit, data, cap)
  {
    var size := Min(BatchSize, limit - offset);
    var page := Page(size, offset, data[offset..]);
    assert !Continued(page);
    assert (pages + [page])[..|pages|] == pages;
    assert Flatten(pages + [page]) == data[..offset] + data[offset..];
    assert data[..offset] + data[offset..] == data[..Min(limit, |data|)];
  }

  /** A full batch from the dataset server moves the loop on to the next
      offset, holding the records up to it. */
  lemma DatasetNextAt(step: Step<Payload>, limit: int, fetch: Fetch, data: seq<Record>, cap: int,
                      pages: seq<Page>, offset: int)
    requires LoopAt(step.client, limit, data, cap, pages, offset)
    requires offset < limit && offset + Min(BatchSize, limit - offset) <= |data|
    requires step.result == Ok(Payload(Some(data[offset..offset + Min(BatchSize, limit - offset)]), map[]))
    ensures var size := Min(BatchSize, limit - offset);
            LoopAt(step.client, limit, data, cap, pages + [Page(size, offset, data[offset..offset + size])], offset + size)
  {
    var size := Min(BatchSize, limit - offset);
    var page := Page(size, offset, data[offset..offset + size]);
    PageLoopContinues(step, limit, fetch, pages, data[..offset], offset);
    assert Flatten(pages + [page]) == data[..offset + size] by {
      PrefixExtend(data, offset, size);
    }
  }

  /** After a full batch from the dataset server, the rest of the loop is the
      loop from the next offset. */
  lemma DatasetNext(step: Step<Payload>, limit: int, fetch: Fetch, data: seq<Record>, cap: int,
                    pages: seq<Page>, offset: int)
    requires LoopAt(step.client, limit, data, cap, pages, offset)
    requires offset < limit && offset + Min(BatchSize, limit - offset) <= |data|
    requires step.result == Ok(Payload(Some(data[offset..offset + Min(BatchSize, limit - offset)]), map[]))
    ensures var size := Min(BatchSize, limit - offset);
            var next := pages + [Page(size, offset, data[offset..offset + size])];
            && LoopAt(step.client, limit, data, cap, next, offset + size)
            && var rest := PageLoop(step.client, limit, fetch, next, data[..offset + size], offset + size);
               AfterPass(step, limit, fetch, pages, data[..offset], offset)
                 == Step(rest.result, rest.client, step.sent + rest.sent)
  {
    var size := Min(BatchSize, limit - offset);
    DatasetNextAt(step, limit, fetch, data, cap, pages, offset);
    PrefixExtend(data, offset, size);
    PageLoopContinues(step, limit, fetch, pages, data[..offset], offset);
  }

  /** After a full batch from the dataset server the loop delivers what the
      loop from the next offset delivers. */
  lemma {:induction false} DatasetAfterPass(step: Step<Payload>, limit: int, fetch: Fetch,
                                            data: seq<Record>, cap: int, pages: seq<Page>, offset: int)
    requires ServesPages(fetch, data, cap)
    requires LoopAt(step.client, limit, data, cap, pages, offset)
    requires offset < limit && offset + Min(BatchSize, limit - offset) <= |data|
    requires step.result == Ok(Payload(Some(data[offset..offset + Min(BatchSize, limit - offset)]), map[]))
    ensures Delivers(AfterPass(step, limit, fetch, pages, data[..offset], offset), limit, data, cap)
    decreases limit - offset, 0
  {
    var size := Min(BatchSize, limit - offset);
    var next := pages + [Page(size, offset, data[offset..offset + size])];
    DatasetNext(step, limit, fetch, data, cap, pages, offset);
    DatasetLoop(step.client, limit, fetch, data, cap, next, offset + size);
    var rest := PageLoop(step.client, limit, fetch, next, data[..offset + size], offset + size);
    assert Delivers(rest, limit, data, cap);
  }

  /** The loop against the dataset server stops once `limit` records are held. */
  lemma DatasetDone(c: Client, limit: int, fetch: Fetch,
                    data: seq<Record>, cap: int, pages: seq<Page>, offset: int)
    requires LoopAt(c, limit, data, cap, pages, offset) && offset == limit
    ensures Delivers(PageLoop(c, limit, fetch, pages, data[..offset], offset), limit, data, cap)
  {
    PageLoopDone(c, limit, fetch, pages, data[..offset], offset);
  }

  /** The pagination loop against the dataset server, from any state it can
      reach: every batch comes back full until the dataset runs out, and the
      loop ends holding exactly the first `limit` records, or all of them
      when there are fewer. */
  lemma {:induction false} DatasetLoop(c: Client, limit: int, fetch: Fetch,
                                       data: seq<Record>, cap: int, pages: seq<Page>, offset: int)
    requires ServesPages(fetch, data, cap)
    requires LoopAt(c, limit, data, cap, pages, offset)
    ensures Delivers(PageLoop(c, limit, fetch, pages, data[..offset], offset), limit, data, cap)
    decreases limit - offset, 2
  {
    if offset < limit {
      DatasetStep(c, limit, fetch, data, cap, pages, offset);
    } else {
      DatasetDone(c, limit, fetch, data, cap, pages, offset);
    }
  }

  /** The pagination loop from its start against the dataset server, when
      its pages fit the cap: it ends holding exactly the first `limit`
      records, or all of them when there are fewer. */
  lemma DatasetLoopFromStart(c: Client, limit: int, exchange: string, symbol: string, now: real,
                             server: Request -> Reply, data: seq<Record>, cap: int)
    requires ServesDataset(server, data, cap)
    requires CacheMatches(c.cache, data, cap)
    requires Min(BatchSize, limit) <= cap
    ensures var loop := PageLoop(c, limit, DailyFetch(now, server, exchange, symbol), [], [], 0);
            && loop.result.Ok?
            && Flatten(loop.result.value) == data[..Max(0, Min(limit, |data|))]
            && CacheMatches(loop.client.cache, data, cap)
  {
    var fetch := DailyFetch(now, server, exchange, symbol);
    if limit <= 0 {
      PageLoopDone(c, limit, fetch, [], [], 0);
    } else {
      DailyFetchServesPages(now, server, exchange, symbol, data, cap);
      assert LoopAt(c, limit, data, cap, [], 0);
      DatasetLoop(c, limit, fetch, data, cap, [], 0);
    }
  }

  /** The paginated path against the dataset server, when its pages fit the
      cap: exactly the first `limit` records come back (all of them when
      there are fewer), with as many reported fetched. */
  lemma DatasetPaginated(c: Client, limit: int, exchange: string, symbol: string, now: real,
                         server: Request -> Reply, data: seq<Record>, cap: int)
    requires ServesDataset(server, data, cap)
    requires CacheMatches(c.cache, data, cap)
    requires Min(BatchSize, limit) <= cap
    ensures var r := GetPaginated(c, limit, exchange, symbol, now, server);
            var k := Max(0, Min(limit, |data|));
            && r.result == Ok(Paginated(false, data[..k], limit, 0, k, true))
            && CacheMatches(r.client.cache, data, cap)
  {
    var loop := PageLoop(c, limit, DailyFetch(now, server, exchange, symbol), [], [], 0);
    DatasetLoopFromStart(c, limit, exchange, symbol, now, server, data, cap);
    var all := data[..Max(0, Min(limit, |data|))];
    assert PyPrefix(all, limit) == all by {
      assert |PyPrefix(all, limit)| == |all|;
    }
    assert GetPaginated(c, limit, exchange, symbol, now, server)
             == Step(Ok(PaginatedResult(limit, loop.result.value)), loop.client, loop.sent);
  }

  /** A bulk fetch that came back complete: no error, exactly the first
      `limit` records (all of them when there are fewer), as many reported
      fetched when paginated, and the cache still matches. */
  ghost predicate Complete(r: Step<DailyResult>, limit: int, data: seq<Record>, cap: int) {
    && r.result.Ok?
    && ResultData(r.result.value) == data[..Max(0, Min(limit, |data|))]
    && (r.result.value.Paginated? ==> r.result.value.totalFetched == Max(0, Min(limit, |data|)))
    && CacheMatches(r.client.cache, data, cap)
  }

  /** A paginated result holding the first `limit` records is complete. */
  lemma PaginatedComplete(r: Step<DailyResult>, limit: int, data: seq<Record>, cap: int)
    requires var k := Max(0, Min(limit, |data|));
             r.result == Ok(Paginated(false, data[..k], limit, 0, k, true))
    requires CacheMatches(r.client.cache, data, cap)
    ensures Complete(r, limit, data, cap) && r.result.value.Paginated?
  {
  }

  /** A first answer returned as received, holding the first `limit`
      records, is complete. */
  lemma ReceivedComplete(r: Step<DailyResult>, limit: int, data: seq<Record>, cap: int)
    requires r.result == Ok(AsReceived(Payload(Some(data[..Max(0, Min(limit, |data|))]), map[])))
    requires CacheMatches(r.client.cache, data, cap)
    ensures Complete(r, limit, data, cap) && !r.result.value.Paginated?
  {
  }

  /** A first answer returned as received, holding the whole dataset when
      that is no more than `limit` records, is complete. */
  lemma ReceivedWholeComplete(r: Step<DailyResult>, limit: int, data: seq<Record>, cap: int)
    requires r.result == Ok(AsReceived(Payload(Some(data), map[])))
    requires Max(0, Min(limit, |data|)) == |data|
    requires CacheMatches(r.client.cache, data, cap)
    ensures Complete(r, limit, data, cap) && !r.result.value.Paginated?
  {
    assert data[..Max(0, Min(limit, |data|))] == data;
  }

  /** What `get_all_daily_data` as written delivers when it is complete: the
      paginated form exactly when the dataset holds more than `limit`
      records. */
  ghost predicate FetchedAll(r: Step<DailyResult>, limit: int, data: seq<Record>, cap: int) {
    && Complete(r, limit, data, cap)
    && (r.result.value.Paginated? <==> 0 <= limit < |data|)
  }

  /** The first request of a bulk fetch: the dataset server answers with the
      first `limit` records, or all of them when there are fewer, but never
      more than the cap. */
  lemma DatasetFirst(c: Client, limit: int, exchange: string, symbol: string, now: real,
                     server: Request -> Reply, data: seq<Record>, cap: int)
    requires ServesDataset(server, data, cap)
    requires CacheMatches(c.cache, data, cap)
    ensures var first := Get(c, DailyEndpoint, DailyParams(limit, exchange, symbol), now, server);
            && first.result == Ok(Payload(Some(data[..Max(0, Min(Min(limit, cap), |data|))]), map[]))
            && CacheMatches(first.client.cache, data, cap)
  {
    var dp := DailyParams(limit, exchange, symbol);
    assert DatasetBody(data, Render(dp), cap) == Payload(Some(data[..Max(0, Min(Min(limit, cap), |data|))]), map[]) by {
      WireAbsent(dp, "offset", 0);
      WireInt(dp, "limit", limit, |data|);
    }
    GetFromDataset(c, dp, now, server, data, cap);
  }

  /** A first request whose `limit` and cap both cover the dataset is
      answered with all of it. */
  lemma DatasetFirstWhole(c: Client, limit: int, exchange: string, symbol: string, now: real,
                          server: Request -> Reply, data: seq<Record>, cap: int)
    requires ServesDataset(server, data, cap)
    requires CacheMatches(c.cache, data, cap)
    requires |data| <= limit && |data| <= cap
    ensures var first := Get(c, DailyEndpoint, DailyParams(limit, exchange, symbol), now, server);
            && first.result == Ok(Payload(Some(data), map[]))
            && CacheMatches(first.client.cache, data, cap)
  {
    DatasetFirstHolds(c, limit, exchange, symbol, now, server, data, cap, |data|);
    assert data[..|data|] == data;
  }

  /** The one-record window at `at` holds a record exactly when the dataset
      has one there. */
  lemma ProbeWindow(data: seq<Record>, at: int)
    ensures Window(data, at, 1) != [] <==> 0 <= at < |data|
  {
    if 0 <= at < |data| {
      assert Window(data, at, 1) == [data[at]];
    }
  }

  /** A probe of the bulk fetch: the dataset server answers with the record
      at position `at`, or nothing when there is none. */
  lemma DatasetProbe(c: Client, limit: int, at: int, exchange: string, symbol: string, now: real,
                     server: Request -> Reply, data: seq<Record>, cap: int)
    requires ServesDataset(server, data, cap)
    requires CacheMatches(c.cache, data, cap)
    ensures var probe := Get(c, DailyEndpoint, ProbeParams(limit, at, exchange, symbol), now, server);
            && probe.result.Ok?
            && (DataOrEmpty(probe.result.value) != [] <==> 0 <= at < |data|)
            && CacheMatches(probe.client.cache, data, cap)
  {
    var pp := ProbeParams(limit, at, exchange, symbol);
    assert DatasetBody(data, Render(pp), cap) == Payload(Some(Window(data, at, 1)), map[]) by {
      WireInt(pp, "offset", at, 0);
      WireInt(pp, "limit", 1, |data|);
    }
    GetFromDataset(c, pp, now, server, data, cap);
    ProbeWindow(data, at);
  }

  /** A bulk fetch of more records than the dataset holds returns the first
      answer unchanged. */
  lemma BulkFetchShort(c: Client, limit: int, exchange: string, symbol: string, now: real,
                       server: Request -> Reply, data: seq<Record>, cap: int)
    requires ServesDataset(server, data, cap)
    requires CacheMatches(c.cache, data, cap)
    requires |data| < limit <= cap
    ensures FetchedAll(GetAllDailyData(c, limit, exchange, symbol, now, server), limit, data, cap)
  {
    DatasetFirst(c, limit, exchange, symbol, now, server, data, cap);
  }

  /** A bulk fetch whose probe finds nothing more returns the first answer
      unchanged. */
  lemma BulkFetchExact(c: Client, limit: int, exchange: string, symbol: string, now: real,
                       server: Request -> Reply, data: seq<Record>, cap: int)
    requires ServesDataset(server, data, cap)
    requires CacheMatches(c.cache, data, cap)
    requires limit <= |data| && limit <= cap && !(0 <= limit < |data|)
    ensures FetchedAll(GetAllDailyData(c, limit, exchange, symbol, now, server), limit, data, cap)
  {
    var first := Get(c, DailyEndpoint, DailyParams(limit, exchange, symbol), now, server);
    DatasetFirstHolds(c, limit, exchange, symbol, now, server, data, cap, Max(0, limit));
    DatasetProbe(first.client, limit, limit, exchange, symbol, now, server, data, cap);
  }

  /** A bulk fetch from a dataset holding more than `limit` records goes on
      to the paginated path and gets exactly the first `limit`. */
  lemma BulkFetchMore(c: Client, limit: int, exchange: string, symbol: string, now: real,
                      server: Request -> Reply, data: seq<Record>, cap: int)
    requires ServesDataset(server, data, cap)
    requires CacheMatches(c.cache, data, cap)
    requires 0 <= limit < |data| && limit <= cap
    ensures FetchedAll(GetAllDailyData(c, limit, exchange, symbol, now, server), limit, data, cap)
  {
    var first := Get(c, DailyEndpoint, DailyParams(limit, exchange, symbol), now, server);
    DatasetFirst(c, limit, exchange, symbol, now, server, data, cap);
    FullFirstAnswer(c, limit, exchange, symbol, now, server);
    DatasetProbeMore(first.client, first.result.value, first.sent, limit, exchange, symbol, now, server, data, cap);
  }

  /** Once a probe has found a record, the paginated path against the
      dataset server gets the first `limit` records. */
  lemma PaginateAfterProbe(c: Client, response: Payload, sent: seq<Request>, limit: int, at: int,
                           exchange: string, symbol: string, now: real,
                           server: Request -> Reply, data: seq<Record>, cap: int)
    requires ServesDataset(server, data, cap)
    requires Min(BatchSize, limit) <= cap
    requires var probe := Get(c, DailyEndpoint, ProbeParams(limit, at, exchange, symbol), now, server);
             && probe.result.Ok? && DataOrEmpty(probe.result.value) != []
             && CacheMatches(probe.client.cache, data, cap)
    ensures var r := ProbeOrPaginate(c, response, sent, limit, at, exchange, symbol, now, server);
            Complete(r, limit, data, cap) && r.result.value.Paginated?
  {
    var probe := Get(c, DailyEndpoint, ProbeParams(limit, at, exchange, symbol), now, server);
    var rest := GetPaginated(probe.client, limit, exchange, symbol, now, server);
    DatasetPaginated(probe.client, limit, exchange, symbol, now, server, data, cap);
    var r := ProbeOrPaginate(c, response, sent, limit, at, exchange, symbol, now, server);
    assert r.result == rest.result && r.client == rest.client;
    PaginatedComplete(r, limit, data, cap);
  }

  /** A probe at a position the dataset holds finds a record, and the
      paginated path then gets the first `limit` records. */
  lemma ProbeFindsMore(c: Client, response: Payload, sent: seq<Request>, limit: int, at: int,
                       exchange: string, symbol: string, now: real,
                       server: Request -> Reply, data: seq<Record>, cap: int)
    requires ServesDataset(server, data, cap)
    requires CacheMatches(c.cache, data, cap)
    requires Min(BatchSize, limit) <= cap
    requires 0 <= at < |data|
    ensures var r := ProbeOrPaginate(c, response, sent, limit, at, exchange, symbol, now, server);
            Complete(r, limit, data, cap) && r.result.value.Paginated?
  {
    DatasetProbe(c, limit, at, exchange, symbol, now, server, data, cap);
    PaginateAfterProbe(c, response, sent, limit, at, exchange, symbol, now, server, data, cap);
  }

  /** After a full first answer from a dataset holding more than `limit`
      records, the probe finds one and the paginated path gets exactly the
      first `limit`. */
  lemma DatasetProbeMore(c: Client, response: Payload, sent: seq<Request>, limit: int,
                         exchange: string, symbol: string, now: real,
                         server: Request -> Reply, data: seq<Record>, cap: int)
    requires ServesDataset(server, data, cap)
    requires CacheMatches(c.cache, data, cap)
    requires 0 <= limit < |data| && limit <= cap
    ensures FetchedAll(ProbeOrPaginate(c, response, sent, limit, limit, exchange, symbol, now, server), limit, data, cap)
  {
    ProbeFindsMore(c, response, sent, limit, limit, exchange, symbol, now, server, data, cap);
  }

  /** Completeness of `get_all_daily_data` within the cap: against the
      dataset server, with `limit` no more than the server sends per
      request, and starting from a cache whose daily-history entries hold
      only what the server says (whatever the other endpoints have left
      there), it returns exactly the first `limit` records (all of them when
      there are fewer), takes the paginated path exactly when there are more
      than `limit`, and then reports `limit` records fetched. */
  lemma BulkFetchIsComplete(c: Client, limit: int, exchange: string, symbol: string, now: real,
                            server: Request -> Reply, data: seq<Record>, cap: int)
    requires ServesDataset(server, data, cap)
    requires CacheMatches(c.cache, data, cap)
    requires limit <= cap
    ensures var r := GetAllDailyData(c, limit, exchange, symbol, now, server);
            && FetchedAll(r, limit, data, cap)
            && (r.result.value.Paginated? ==> r.result.value.totalFetched == limit)
  {
    if |data| < limit {
      BulkFetchShort(c, limit, exchange, symbol, now, server, data, cap);
    } else if 0 <= limit < |data| {
      BulkFetchMore(c, limit, exchange, symbol, now, server, data, cap);
    } else {
      BulkFetchExact(c, limit, exchange, symbol, now, server, data, cap);
    }
  }

  /** Beyond the cap `get_all_daily_data` as written stops short: when both
      `limit` and the dataset exceed what the server sends per request, the
      first answer holds only the first `cap` records, fewer than `limit`,
      so it is returned as complete after that one request, without a
      probe, and records the caller asked for are missing. */
  lemma CappedFetchIncomplete(c: Client, limit: int, exchange: string, symbol: string, now: real,
                              server: Request -> Reply, data: seq<Record>, cap: int)
    requires ServesDataset(server, data, cap)
    requires CacheMatches(c.cache, data, cap)
    requires cap < limit && cap < |data|
    ensures var first := Get(c, DailyEndpoint, DailyParams(limit, exchange, symbol), now, server);
            var r := GetAllDailyData(c, limit, exchange, symbol, now, server);
            && r == Step(Ok(AsReceived(Payload(Some(data[..cap]), map[]))), first.client, first.sent)
            && |r.sent| <= 1
            && |ResultData(r.result.value)| < Min(limit, |data|)
  {
    DatasetFirst(c, limit, exchange, symbol, now, server, data, cap);
    ShortFirstAnswer(c, limit, exchange, symbol, now, server);
  }

  /** Once a probe has found nothing, a first answer holding the first
      `limit` records is returned complete. */
  lemma ReturnAfterEmptyProbe(c: Client, response: Payload, sent: seq<Request>, limit: int, at: int,
                              exchange: string, symbol: string, now: real,
                              server: Request -> Reply, data: seq<Record>, cap: int)
    requires var probe := Get(c, DailyEndpoint, ProbeParams(limit, at, exchange, symbol), now, server);
             && probe.result.Ok? && DataOrEmpty(probe.result.value) == []
             && CacheMatches(probe.client.cache, data, cap)
    requires response == Payload(Some(data), map[]) && Max(0, Min(limit, |data|)) == |data|
    ensures var r := ProbeOrPaginate(c, response, sent, limit, at, exchange, symbol, now, server);
            Complete(r, limit, data, cap) && !r.result.value.Paginated?
  {
    var probe := Get(c, DailyEndpoint, ProbeParams(limit, at, exchange, symbol), now, server);
    var r := ProbeOrPaginate(c, response, sent, limit, at, exchange, symbol, now, server);
    assert r == Step(Ok(AsReceived(response)), probe.client, sent + probe.sent);
    ReceivedWholeComplete(r, limit, data, cap);
  }

  /** The corrected fetch's probe after a first answer holding the whole
      dataset finds nothing, and that answer is returned. */
  lemma FixedProbeEnd(c: Client, limit: int, exchange: string, symbol: string, now: real,
                      sent: seq<Request>, server: Request -> Reply, data: seq<Record>, cap: int)
    requires ServesDataset(server, data, cap)
    requires CacheMatches(c.cache, data, cap)
    requires Max(0, Min(limit, |data|)) == |data|
    ensures var response := Payload(Some(data), map[]);
            var r := ProbeOrPaginate(c, response, sent, limit, |data|, exchange, symbol, now, server);
            Complete(r, limit, data, cap) && !r.result.value.Paginated?
  {
    DatasetProbe(c, limit, |data|, exchange, symbol, now, server, data, cap);
    ReturnAfterEmptyProbe(c, Payload(Some(data), map[]), sent, limit, |data|, exchange, symbol, now, server, data, cap);
  }

  /** The corrected fetch after a first answer of `held` records, at least
      `Min(limit, BatchSize)` of them: the probe just after them decides,
      and either way the result is complete. */
  lemma FixedProbe(c: Client, response: Payload, sent: seq<Request>, limit: int, held: int,
                   exchange: string, symbol: string, now: real,
                   server: Request -> Reply, data: seq<Record>, cap: int)
    requires ServesDataset(server, data, cap)
    requires CacheMatches(c.cache, data, cap)
    requires BatchSize <= cap
    requires 0 <= held <= |data| && response == Payload(Some(data[..held]), map[])
    requires held == |data| ==> Max(0, Min(limit, |data|)) == |data|
    ensures var r := ProbeOrPaginate(c, response, sent, limit, held, exchange, symbol, now, server);
            Complete(r, limit, data, cap) && (r.result.value.Paginated? <==> held < |data|)
  {
    if held < |data| {
      ProbeFindsMore(c, response, sent, limit, held, exchange, symbol, now, server, data, cap);
    } else {
      assert data[..held] == data;
      FixedProbeEnd(c, limit, exchange, symbol, now, sent, server, data, cap);
    }
  }

  /** A first answer holding the whole dataset, short of both `limit` and
      `BatchSize`, is returned complete by the corrected fetch. */
  lemma ReturnShortFirst(c: Client, limit: int, exchange: string, symbol: string, now: real,
                         server: Request -> Reply, data: seq<Record>, cap: int)
    requires var first := Get(c, DailyEndpoint, DailyParams(limit, exchange, symbol), now, server);
             && first.result == Ok(Payload(Some(data), map[]))
             && CacheMatches(first.client.cache, data, cap)
    requires |data| < Min(limit, BatchSize)
    ensures var r := GetAllDailyDataFixed(c, limit, exchange, symbol, now, server);
            Complete(r, limit, data, cap) && !r.result.value.Paginated?
  {
    var first := Get(c, DailyEndpoint, DailyParams(limit, exchange, symbol), now, server);
    var r := GetAllDailyDataFixed(c, limit, exchange, symbol, now, server);
    assert |DataOrEmpty(first.result.value)| == |data|;
    assert r == Step(Ok(AsReceived(first.result.value)), first.client, first.sent);
    ReceivedWholeComplete(r, limit, data, cap);
  }

  /** The corrected fetch when the first answer is short of both `limit`
      and `BatchSize`: it holds the whole dataset and is returned. */
  lemma FixedShortFirst(c: Client, limit: int, exchange: string, symbol: string, now: real,
                        server: Request -> Reply, data: seq<Record>, cap: int)
    requires ServesDataset(server, data, cap)
    requires CacheMatches(c.cache, data, cap)
    requires BatchSize <= cap
    requires |data| < Min(limit, BatchSize)
    ensures var r := GetAllDailyDataFixed(c, limit, exchange, symbol, now, server);
            Complete(r, limit, data, cap) && !r.result.value.Paginated?
  {
    DatasetFirstWhole(c, limit, exchange, symbol, now, server, data, cap);
    ReturnShortFirst(c, limit, exchange, symbol, now, server, data, cap);
  }

  /** After a first answer of `held` records, `Min(limit, BatchSize)` or
      more, the corrected fetch is decided by the probe just after them. */
  lemma ProbeAfterFullFirst(c: Client, limit: int, exchange: string, symbol: string, now: real,
                            server: Request -> Reply, data: seq<Record>, cap: int, held: int)
    requires ServesDataset(server, data, cap)
    requires BatchSize <= cap
    requires 0 <= held <= |data| && held >= Min(limit, BatchSize)
    requires held == |data| ==> Max(0, Min(limit, |data|)) == |data|
    requires var first := Get(c, DailyEndpoint, DailyParams(limit, exchange, symbol), now, server);
             && first.result == Ok(Payload(Some(data[..held]), map[]))
             && CacheMatches(first.client.cache, data, cap)
    ensures var r := GetAllDailyDataFixed(c, limit, exchange, symbol, now, server);
            Complete(r, limit, data, cap) && (r.result.value.Paginated? <==> held < |data|)
  {
    var first := Get(c, DailyEndpoint, DailyParams(limit, exchange, symbol), now, server);
    assert |DataOrEmpty(first.result.value)| == held;
    FixedFullAnswer(c, limit, exchange, symbol, now, server);
    FixedProbe(first.client, first.result.value, first.sent, limit, held, exchange, symbol, now, server, data, cap);
  }

  /** The first request's answer, with the number of records it holds
      named: the first `held` records of the dataset. */
  lemma DatasetFirstHolds(c: Client, limit: int, exchange: string, symbol: string, now: real,
                          server: Request -> Reply, data: seq<Record>, cap: int, held: int)
    requires ServesDataset(server, data, cap)
    requires CacheMatches(c.cache, data, cap)
    requires held == Max(0, Min(Min(limit, cap), |data|))
    ensures var first := Get(c, DailyEndpoint, DailyParams(limit, exchange, symbol), now, server);
            && first.result == Ok(Payload(Some(data[..held]), map[]))
            && CacheMatches(first.client.cache, data, cap)
  {
    DatasetFirst(c, limit, exchange, symbol, now, server, data, cap);
  }

  /** The corrected fetch when the first answer holds `Min(limit, BatchSize)`
      records or more: the probe after them decides. */
  lemma FixedFullFirst(c: Client, limit: int, exchange: string, symbol: string, now: real,
                       server: Request -> Reply, data: seq<Record>, cap: int)
    requires ServesDataset(server, data, cap)
    requires CacheMatches(c.cache, data, cap)
    requires BatchSize <= cap
    requires Max(0, Min(Min(limit, cap), |data|)) >= Min(limit, BatchSize)
    ensures var r := GetAllDailyDataFixed(c, limit, exchange, symbol, now, server);
            && Complete(r, limit, data, cap)
            && (r.result.value.Paginated? <==> Max(0, Min(limit, cap)) < |data|)
  {
    var held := Max(0, Min(Min(limit, cap), |data|));
    assert held < |data| <==> Max(0, Min(limit, cap)) < |data|;
    DatasetFirstHolds(c, limit, exchange, symbol, now, server, data, cap, held);
    ProbeAfterFullFirst(c, limit, exchange, symbol, now, server, data, cap, held);
  }

  /** Completeness of the corrected fetch: against a dataset server that
      sends at least `BatchSize` records per request, from a cache whose
      daily-history entries hold only what the server says, it returns
      exactly the first `limit` records (all of them when there are fewer)
      for every `limit`, and takes the paginated path exactly when one
      request cannot carry them. */
  lemma FixedFetchIsComplete(c: Client, limit: int, exchange: string, symbol: string, now: real,
                             server: Request -> Reply, data: seq<Record>, cap: int)
    requires ServesDataset(server, data, cap)
    requires CacheMatches(c.cache, data, cap)
    requires BatchSize <= cap
    ensures var r := GetAllDailyDataFixed(c, limit, exchange, symbol, now, server);
            && Complete(r, limit, data, cap)
            && (r.result.value.Paginated? <==> Max(0, Min(limit, cap)) < |data|)
  {
    if |data| < Min(limit, BatchSize) {
      FixedShortFirst(c, limit, exchange, symbol, now, server, data, cap);
    } else {
      FixedFullFirst(c, limit, exchange, symbol, now, server, data, cap);
    }
  }

  /** `fetch_all_data` as it orders its requests: through a new client it
      first loads the symbol aliases, then fetches the latest snapshot, then
      the bulk history of 10000 records, each of the three calls at its own
      time. Against a server that sends at most `BatchSize` records per
      request, and a dataset larger than that, the history it gets as
      written is only the first `BatchSize` records. */
  lemma FetchAllDataHistory(apiKey: string, envApiKey: string, t1: real, t2: real, t3: real,
                            server: Request -> Reply, data: seq<Record>)
    requires ServesDataset(server, data, BatchSize)
    requires BatchSize < |data|
    ensures var load := SymbolResolver.LoadWith(SymbolResolver.NewResolver, NewClient("", apiKey, envApiKey), t1, server);
            && load.api.Some?
            && var latest := GetLatestData(load.api.value, 1000, "", "", t2, server);
               var r := GetAllDailyData(latest.client, 10000, "", "", t3, server);
               && r.result == Ok(AsReceived(Payload(Some(data[..BatchSize]), map[])))
               && |r.sent| <= 1
  {
    var c := NewClient("", apiKey, envApiKey);
    var aliases := GetSymbolAliases(c, SymbolResolver.AliasLimit, t1, server);
    GetElsewhere(c, AliasesEndpoint, [("limit", IntVal(SymbolResolver.AliasLimit))], t1, server, data, BatchSize);
    var latest := GetLatestData(aliases.client, 1000, "", "", t2, server);
    GetElsewhere(aliases.client, LatestEndpoint, LatestParams(1000, "", ""), t2, server, data, BatchSize);
    CappedFetchIncomplete(latest.client, 10000, "", "", t3, server, data, BatchSize);
  }

  /** The same order of requests with the corrected fetch: against any
      dataset server that sends at least `BatchSize` records per request,
      the history comes back complete. */
  lemma FetchAllDataHistoryFixed(apiKey: string, envApiKey: string, t1: real, t2: real, t3: real,
                                 server: Request -> Reply, data: seq<Record>, cap: int)
    requires ServesDataset(server, data, cap)
    requires BatchSize <= cap
    ensures var load := SymbolResolver.LoadWith(SymbolResolver.NewResolver, NewClient("", apiKey, envApiKey), t1, server);
            && load.api.Some?
            && var latest := GetLatestData(load.api.value, 1000, "", "", t2, server);
               Complete(GetAllDailyDataFixed(latest.client, 10000, "", "", t3, server), 10000, data, cap)
  {
    var c := NewClient("", apiKey, envApiKey);
    var aliases := GetSymbolAliases(c, SymbolResolver.AliasLimit, t1, server);
    GetElsewhere(c, AliasesEndpoint, [("limit", IntVal(SymbolResolver.AliasLimit))], t1, server, data, cap);
    var latest := GetLatestData(aliases.client, 1000, "", "", t2, server);
    GetElsewhere(aliases.client, LatestEndpoint, LatestParams(1000, "", ""), t2, server, data, cap);
    FixedFetchIsComplete(latest.client, 10000, "", "", t3, server, data, cap);
  }
}

=== FILE: query_string.dfy ===
/** Python's `urllib.parse.urlencode` with its default escaping `quote_plus`,
    which the client uses to turn sorted request parameters into a cache key,
    together with a decoder proving that the encoding loses nothing. */
module QueryString {
  import opened Results

  /** Characters `quote_plus` never escapes: ASCII letters, digits and `_.-~`. */
  predicate AlwaysSafe(c: char) {
    || ('A' <= c <= 'Z') || ('a' <= c <= 'z') || ('0' <= c <= '9')
    || c == '_' || c == '.' || c == '-' || c == '~'
  }

  /** The characters `quote_plus` can produce. */
  predicate IsQuotedChar(c: char) {
    AlwaysSafe(c) || c == '+' || c == '%'
  }

  /** A Unicode scalar value, that is, a code point a `char` can hold. */
  predicate IsScalar(cp: int) {
    0 <= cp < 0xD800 || 0xE000 <= cp < 0x11_0000
  }

  /** Number of bytes in the UTF-8 sequence that lead byte `b` starts; 0 when
      `b` cannot start one. */
  function Utf8Length(b: int): nat {
    if 0 <= b < 0x80 then 1
    else if 0xC0 <= b < 0xE0 then 2
    else if 0xE0 <= b < 0xF0 then 3
    else if 0xF0 <= b < 0xF8 then 4
    else 0
  }

  /** The UTF-8 bytes of code point `cp`; `quote_plus` escapes these. */
  function Utf8(cp: int): (bs: seq<int>)
    requires 0 <= cp < 0x11_0000
    ensures 1 <= |bs| <= 4
    ensures forall i :: 0 <= i < |bs| ==> 0 <= bs[i] < 256
    ensures Utf8Length(bs[0]) == |bs|
  {
    if cp < 0x80 then [cp]
    else if cp < 0x800 then [0xC0 + cp / 64, 0x80 + cp % 64]
    else if cp < 0x1_0000 then [0xE0 + cp / 4096, 0x80 + (cp / 64) % 64, 0x80 + cp % 64]
    else [0xF0 + cp / 262144, 0x80 + (cp / 4096) % 64, 0x80 + (cp / 64) % 64, 0x80 + cp % 64]
  }

  /** The code point a UTF-8 sequence of one to four bytes stands for. */
  function Utf8Decode(bs: seq<int>): int
    requires 1 <= |bs| <= 4
  {
    if |bs| == 1 then bs[0]
    else if |bs| == 2 then (bs[0] - 0xC0) * 64 + (bs[1] - 0x80)
    else if |bs| == 3 then (bs[0] - 0xE0) * 4096 + (bs[1] - 0x80) * 64 + (bs[2] - 0x80)
    else (bs[0] - 0xF0) * 262144 + (bs[1] - 0x80) * 4096 + (bs[2] - 0x80) * 64 + (bs[3] - 0x80)
  }

  lemma Utf8RoundTrip(cp: int)
    requires 0 <= cp < 0x11_0000
    ensures Utf8Decode(Utf8(cp)) == cp
  {
    if cp >= 0x800 {
      var q := cp / 64;
      assert cp == q * 64 + cp % 64;
      assert q == (q / 64) * 64 + q % 64;
      if cp < 0x1_0000 {
        assert cp / 4096 == q / 64;
      } else {
        var q2 := q / 64;
        assert q2 == (q2 / 64) * 64 + q2 % 64;
        assert cp / 4096 == q2;
        assert cp / 262144 == q2 / 64;
      }
    }
  }

  /** An upper-case hexadecimal digit, as Python's `%02X` writes it. */
  function HexDigit(n: int): (c: char)
    requires 0 <= n < 16
    ensures AlwaysSafe(c)
  {
    if n < 10 then ('0' as int + n) as char else ('A' as int + n - 10) as char
  }

  function HexValue(c: char): (r: Option<int>)
    ensures r.Some? ==> 0 <= r.value < 16
  {
    if '0' <= c <= '9' then Some(c as int - '0' as int)
    else if 'A' <= c <= 'F' then Some(c as int - 'A' as int + 10)
    else None
  }

  /** `%XY` for every byte. */
  function Percent(bs: seq<int>): (r: string)
    requires forall i :: 0 <= i < |bs| ==> 0 <= bs[i] < 256
    ensures |r| == 3 * |bs|
    ensures forall i :: 0 <= i < |r| ==> IsQuotedChar(r[i])
  {
    if bs == [] then []
    else ['%', HexDigit(bs[0] / 16), HexDigit(bs[0] % 16)] + Percent(bs[1..])
  }

  /** How `quote_plus` writes one character: safe characters as they are, a
      space as `+`, anything else as its percent-escaped UTF-8 bytes. */
  function EncodeChar(c: char): (r: string)
    ensures 1 <= |r|
    ensures forall i :: 0 <= i < |r| ==> IsQuotedChar(r[i])
  {
    if AlwaysSafe(c) then [c]
    else if c == ' ' then "+"
    else Percent(Utf8(c as int))
  }

  /** Python's `urllib.parse.quote_plus(s)` with its default `safe=''`. */
  function QuotePlus(s: string): (r: string)
    ensures forall i :: 0 <= i < |r| ==> IsQuotedChar(r[i])
  {
    if s == [] then [] else EncodeChar(s[0]) + QuotePlus(s[1..])
  }

  /** The byte written as `%XY` at the start of `s`. */
  function ReadByte(s: string): (r: Option<int>)
    ensures r.Some? ==> |s| >= 3 && 0 <= r.value < 256
  {
    if |s| >= 3 && s[0] == '%' && HexValue(s[1]).Some? && HexValue(s[2]).Some?
    then Some(HexValue(s[1]).value * 16 + HexValue(s[2]).value)
    else None
  }

  /** `n` percent-escaped bytes from the start of `s`. */
  function ReadBytes(s: string, n: nat): (r: Option<seq<int>>)
    ensures r.Some? ==> |r.value| == n && |s| >= 3 * n
    ensures r.Some? ==> forall i :: 0 <= i < n ==> 0 <= r.value[i] < 256
  {
    if n == 0 then Some([])
    else match ReadByte(s)
      case None => None
      case Some(b) =>
        match ReadBytes(s[3..], n - 1)
        case None => None
        case Some(rest) => Some([b] + rest)
  }

  /** The character that the start of an escaped string stands for, with the
      number of escaped characters it takes. */
  function DecodeFirst(s: string): (r: Option<(char, nat)>)
    requires s != []
    ensures r.Some? ==> 1 <= r.value.1 <= |s|
  {
    if s[0] == '+' then Some((' ', 1))
    else if s[0] == '%' then
      match ReadByte(s)
      case None => None
      case Some(lead) =>
        var n := Utf8Length(lead);
        if n == 0 then None
        else match ReadBytes(s, n)
          case None => None
          case Some(bs) =>
            var cp := Utf8Decode(bs);
            if IsScalar(cp) then Some((cp as char, 3 * n)) else None
    else if AlwaysSafe(s[0]) then Some((s[0], 1))
    else None
  }

  /** The inverse of QuotePlus on its outputs. */
  function Unquote(s: string): Option<string>
    decreases |s|
  {
    if s == [] then Some([])
    else match DecodeFirst(s)
      case None => None
      case Some((c, k)) =>
        match Unquote(s[k..])
        case None => None
        case Some(t) => Some([c] + t)
  }

  lemma {:induction false} ReadPercent(bs: seq<int>, rest: string, n: nat)
    requires forall i :: 0 <= i < |bs| ==> 0 <= bs[i] < 256
    requires n <= |bs|
    ensures ReadBytes(Percent(bs) + rest, n) == Some(bs[..n])
  {
    if n > 0 {
      var s := Percent(bs) + rest;
      var b := bs[0];
      assert b == (b / 16) * 16 + b % 16;
      assert s[..3] == ['%', HexDigit(b / 16), HexDigit(b % 16)];
      assert ReadByte(s) == Some(b);
      assert s[3..] == Percent(bs[1..]) + rest;
      ReadPercent(bs[1..], rest, n - 1);
      assert [b] + bs[1..][..n - 1] == bs[..n];
    }
  }

  lemma DecodeEncodeChar(c: char, rest: string)
    ensures DecodeFirst(EncodeChar(c) + rest) == Some((c, |EncodeChar(c)|))
  {
    if !AlwaysSafe(c) && c != ' ' {
      var cp := c as int;
      var bs := Utf8(cp);
      var s := Percent(bs) + rest;
      ReadPercent(bs, rest, 1);
      assert ReadByte(s) == Some(bs[0]) by {
        assert bs[..1] == [bs[0]];
      }
      ReadPercent(bs, rest, |bs|);
      assert bs[..|bs|] == bs;
      Utf8RoundTrip(cp);
    }
  }

  /** `quote_plus` loses nothing: its output can be read back. */
  lemma {:induction false} UnquoteQuotePlus(s: string)
    ensures Unquote(QuotePlus(s)) == Some(s)
  {
    if s != [] {
      var e := EncodeChar(s[0]);
      var q := QuotePlus(s);
      DecodeEncodeChar(s[0], QuotePlus(s[1..]));
      assert q[|e|..] == QuotePlus(s[1..]);
      UnquoteQuotePlus(s[1..]);
      assert [s[0]] + s[1..] == s;
    }
  }

  lemma QuotePlusInjective(a: string, b: string)
    requires QuotePlus(a) == QuotePlus(b)
    ensures a == b
  {
    UnquoteQuotePlus(a);
    UnquoteQuotePlus(b);
  }

  /** `k=v` for one parameter, both sides escaped. */
  function EncodePair(kv: (string, string)): (r: string)
    ensures '&' !in r
  {
    QuotePlus(kv.0) + "=" + QuotePlus(kv.1)
  }

  /** Python's `urlencode(pairs)`: the escaped pairs joined by `&`, in the given order. */
  function Urlencode(pairs: seq<(string, string)>): (r: string)
    ensures |pairs| > 0 ==> r != []
    ensures forall i :: 0 <= i < |r| ==> r[i] != ':'
  {
    if |pairs| == 0 then []
    else if |pairs| == 1 then EncodePair(pairs[0])
    else EncodePair(pairs[0]) + "&" + Urlencode(pairs[1..])
  }

  /** Python's `s.split(sep)`. */
  function Split(s: string, sep: char): (r: seq<string>)
    ensures |r| >= 1
  {
    if s == [] then [[]]
    else
      var rest := Split(s[1..], sep);
      if s[0] == sep then [[]] + rest else [[s[0]] + rest[0]] + rest[1..]
  }

  lemma {:induction false} SplitWithout(a: string, sep: char)
    requires sep !in a
    ensures Split(a, sep) == [a]
  {
    if a != [] {
      SplitWithout(a[1..], sep);
      assert [a[0]] + a[1..] == a;
    }
  }

  lemma {:induction false} SplitAt(a: string, sep: char, b: string)
    requires sep !in a
    ensures Split(a + [sep] + b, sep) == [a] + Split(b, sep)
  {
    var s := a + [sep] + b;
    if a == [] {
      assert s[1..] == b;
    } else {
      assert s[1..] == a[1..] + [sep] + b;
      SplitAt(a[1..], sep, b);
      assert [a[0]] + a[1..] == a;
    }
  }

  /** The escaped `k=v` pieces of `pairs`, in order. */
  function Pieces(pairs: seq<(string, string)>): (r: seq<string>)
    ensures |r| == |pairs|
  {
    if pairs == [] then [] else [EncodePair(pairs[0])] + Pieces(pairs[1..])
  }

  lemma {:induction false} SplitUrlencode(pairs: seq<(string, string)>)
    requires |pairs| >= 1
    ensures Split(Urlencode(pairs), '&') == Pieces(pairs)
  {
    if |pairs| == 1 {
      SplitWithout(EncodePair(pairs[0]), '&');
    } else {
      SplitAt(EncodePair(pairs[0]), '&', Urlencode(pairs[1..]));
      SplitUrlencode(pairs[1..]);
    }
  }

  function DecodePair(piece: string): Option<(string, string)> {
    var parts := Split(piece, '=');
    if |parts| != 2 then None
    else match (Unquote(parts[0]), Unquote(parts[1]))
      case (Some(k), Some(v)) => Some((k, v))
      case _ => None
  }

  function DecodePieces(pieces: seq<string>): Option<seq<(string, string)>> {
    if pieces == [] then Some([])
    else match (DecodePair(pieces[0]), DecodePieces(pieces[1..]))
      case (Some(kv), Some(rest)) => Some([kv] + rest)
      case _ => None
  }

  /** Reads a query string back into its ordered pairs. */
  function DecodeQuery(q: string): Option<seq<(string, string)>> {
    if q == [] then Some([]) else DecodePieces(Split(q, '&'))
  }

  lemma DecodeEncodePair(kv: (string, string))
    ensures DecodePair(EncodePair(kv)) == Some(kv)
  {
    var a := QuotePlus(kv.0);
    var b := QuotePlus(kv.1);
    assert '=' !in a;
    assert '=' !in b;
    SplitAt(a, '=', b);
    SplitWithout(b, '=');
    UnquoteQuotePlus(kv.0);
    UnquoteQuotePlus(kv.1);
  }

  lemma {:induction false} DecodePiecesOf(pairs: seq<(string, string)>)
    ensures DecodePieces(Pieces(pairs)) == Some(pairs)
  {
    if pairs != [] {
      DecodeEncodePair(pairs[0]);
      DecodePiecesOf(pairs[1..]);
      assert [pairs[0]] + pairs[1..] == pairs;
    }
  }

  /** `urlencode` loses nothing: the pairs, in order, can be read back from its output. */
  lemma DecodeUrlencode(pairs: seq<(string, string)>)
    ensures DecodeQuery(Urlencode(pairs)) == Some(pairs)
  {
    if pairs != [] {
      SplitUrlencode(pairs);
      DecodePiecesOf(pairs);
    }
  }

  /** Splits `s` at its last `ch`: everything before it and everything after it. */
  function SplitAtLast(s: string, ch: char): Option<(string, string)> {
    if s == [] then None
    else if s[|s| - 1] == ch then Some((s[..|s| - 1], []))
    else match SplitAtLast(s[..|s| - 1], ch)
      case None => None
      case Some((a, b)) => Some((a, b + [s[|s| - 1]]))
  }

  lemma {:induction false} SplitAtLastOf(a: string, ch: char, b: string)
    requires ch !in b
    ensures SplitAtLast(a + [ch] + b, ch) == Some((a, b))
  {
    var s := a + [ch] + b;
    if b == [] {
      assert s[..|s| - 1] == a;
    } else {
      assert s[..|s| - 1] == a + [ch] + b[..|b| - 1];
      SplitAtLastOf(a, ch, b[..|b| - 1]);
      assert b[..|b| - 1] + [b[|b| - 1]] == b;
    }
  }
}

=== FILE: results.dfy ===
/** Optional values and success/failure results, used where the Python code
    returns `None`, falls back to a default, or raises. */
module Results {

  datatype Option<+T> = None | Some(value: T) {

    /** The wrapped value, or `default` when there is none (Python's `d.get(k, default)`). */
    function GetOr(default: T): T {
      match this
      case Some(v) => v
      case None => default
    }
  }

  /** Either a value or the error the Python code would have raised. */
  datatype Result<+T, +E> = Ok(value: T) | Err(error: E)
}

=== FILE: symbol_resolver.dfy ===
/** `SymbolResolver` (src/common/symbol_resolver.py): the alias tables loaded
    from the API's symbol-alias endpoint, and the lookups and normalisation
    built on them.

    A resolver is an immutable value here; `load_aliases` returns the new
    resolver together with the client after the request and the requests
    it sent. */
module SymbolResolver {
  import opened Results
  import Text
  import opened ApiClient

  /** How many aliases `load_aliases` asks for: `get_symbol_aliases`'s default. */
  const AliasLimit := 1000

  /** `item.get(name, '')` */
  function Field(item: Record, name: string): string {
    if name in item.fields then item.fields[name] else ""
  }

  function Raw(item: Record): string {
    Field(item, "symbol_raw")
  }

  function Canonical(item: Record): string {
    Field(item, "symbol_canonical")
  }

  /** A record enters the tables only when it names both a raw and a
      canonical symbol. */
  predicate Accepted(item: Record) {
    Raw(item) != "" && Canonical(item) != ""
  }

  /** The two alias tables: `aliases` sends a raw symbol to its canonical one,
      `reverse` sends a canonical symbol to the raw symbols listed for it, and
      `order` holds the keys of `reverse` in the order they were inserted,
      as `list(reverse_aliases.keys())` returns them. */
  datatype Tables = Tables(aliases: map<string, string>, reverse: map<string, seq<string>>, order: seq<string>)

  const NoTables := Tables(map[], map[], [])

  /** `order` lists every key of `reverse` exactly once and nothing else. */
  ghost predicate WellFormed(t: Tables) {
    && (forall c :: c in t.reverse <==> c in t.order)
    && (forall i, j :: 0 <= i < j < |t.order| ==> t.order[i] != t.order[j])
  }

  /** One turn of the table-building loop. */
  function AddItem(t: Tables, item: Record): (r: Tables)
    ensures WellFormed(t) ==> WellFormed(r)
  {
    if Accepted(item) then
      var raw, canonical := Raw(item), Canonical(item);
      if canonical in t.reverse then
        Tables(t.aliases[raw := canonical], t.reverse[canonical := t.reverse[canonical] + [raw]], t.order)
      else
        Tables(t.aliases[raw := canonical], t.reverse[canonical := [raw]], t.order + [canonical])
    else
      t
  }

  /** The tables `load_aliases` builds from a response's `data` list, starting
      from empty ones. */
  function BuildTables(items: seq<Record>): (t: Tables)
    ensures WellFormed(t)
  {
    if items == [] then NoTables else AddItem(BuildTables(items[..|items| - 1]), items[|items| - 1])
  }

  // ---- reference definitions of what the tables hold ----

  /** The accepted records among `items`, in order. */
  function AcceptedOnly(items: seq<Record>): (r: seq<Record>)
    ensures forall x :: x in r ==> Accepted(x)
  {
    if items == [] then []
    else (if Accepted(items[0]) then [items[0]] else []) + AcceptedOnly(items[1..])
  }

  /** Some accepted record in `items` has raw symbol `raw`. */
  ghost predicate ListsRaw(items: seq<Record>, raw: string) {
    exists i :: 0 <= i < |items| && Accepted(items[i]) && Raw(items[i]) == raw
  }

  /** Some accepted record in `items` has canonical symbol `c`. */
  ghost predicate ListsCanonical(items: seq<Record>, c: string) {
    exists i :: 0 <= i < |items| && Accepted(items[i]) && Canonical(items[i]) == c
  }

  /** The raw symbols of the accepted records whose canonical symbol is `c`,
      in the order of the records. */
  function RawsFor(items: seq<Record>, c: string): seq<string> {
    if items == [] then []
    else (if Accepted(items[0]) && Canonical(items[0]) == c then [Raw(items[0])] else []) + RawsFor(items[1..], c)
  }

  /** The distinct raw symbols of the accepted records. */
  ghost function RawSet(items: seq<Record>): set<string> {
    set i | 0 <= i < |items| && Accepted(items[i]) :: Raw(items[i])
  }

  lemma {:induction false} AcceptedOnlySnoc(items: seq<Record>, x: Record)
    ensures AcceptedOnly(items + [x]) == AcceptedOnly(items) + (if Accepted(x) then [x] else [])
  {
    if items != [] {
      assert (items + [x])[1..] == items[1..] + [x];
      AcceptedOnlySnoc(items[1..], x);
    }
  }

  lemma {:induction false} RawsForSnoc(items: seq<Record>, x: Record, c: string)
    ensures RawsFor(items + [x], c) == RawsFor(items, c) + (if Accepted(x) && Canonical(x) == c then [Raw(x)] else [])
  {
    if items != [] {
      assert (items + [x])[1..] == items[1..] + [x];
      RawsForSnoc(items[1..], x, c);
    }
  }

  /** Records without both symbols play no part: the tables are those built
      from the accepted records alone. */
  lemma {:induction false} OnlyAcceptedMatter(items: seq<Record>)
    ensures BuildTables(items) == BuildTables(AcceptedOnly(items))
  {
    if items != [] {
      var p, x := items[..|items| - 1], items[|items| - 1];
      var a := AcceptedOnly(p);
      assert items == p + [x];
      AcceptedOnlySnoc(p, x);
      OnlyAcceptedMatter(p);
      if Accepted(x) {
        var ax := a + [x];
        assert AcceptedOnly(items) == ax;
        assert ax[..|ax| - 1] == a;
        assert BuildTables(ax) == AddItem(BuildTables(a), x);
      } else {
        assert AcceptedOnly(items) == a;
        assert BuildTables(items) == BuildTables(p);
      }
    }
  }

  /** A raw symbol has an alias exactly when some accepted record lists it. */
  lemma {:induction false} AliasesDomain(items: seq<Record>, raw: string)
    ensures raw in BuildTables(items).aliases <==> ListsRaw(items, raw)
  {
    if items != [] {
      var p, x := items[..|items| - 1], items[|items| - 1];
      AliasesDomain(p, raw);
      if ListsRaw(p, raw) {
        var i :| 0 <= i < |p| && Accepted(p[i]) && Raw(p[i]) == raw;
        assert items[i] == p[i];
      }
      if ListsRaw(items, raw) {
        var i :| 0 <= i < |items| && Accepted(items[i]) && Raw(items[i]) == raw;
        if i < |p| {
          assert p[i] == items[i];
        }
      }
    }
  }

  /** Last write wins: a raw symbol is sent to the canonical symbol of the
      last accepted record that lists it. */
  lemma {:induction false} LastWriteWins(items: seq<Record>, i: int)
    requires 0 <= i < |items| && Accepted(items[i])
    requires forall k :: i < k < |items| && Accepted(items[k]) ==> Raw(items[k]) != Raw(items[i])
    ensures Raw(items[i]) in BuildTables(items).aliases
    ensures BuildTables(items).aliases[Raw(items[i])] == Canonical(items[i])
  {
    var p, x := items[..|items| - 1], items[|items| - 1];
    if i < |p| {
      forall k | i < k < |p| && Accepted(p[k]) ensures Raw(p[k]) != Raw(p[i]) {
        assert p[k] == items[k];
      }
      LastWriteWins(p, i);
    }
  }

  /** The reverse table lists, for each canonical symbol, the raw symbols of
      the accepted records naming it, in input order; its keys are exactly the
      canonical symbols that have some. */
  lemma {:induction false} ReverseIsFilter(items: seq<Record>, c: string)
    ensures c in BuildTables(items).reverse <==> RawsFor(items, c) != []
    ensures c in BuildTables(items).reverse ==> BuildTables(items).reverse[c] == RawsFor(items, c)
  {
    if items != [] {
      var p, x := items[..|items| - 1], items[|items| - 1];
      assert items == p + [x];
      RawsForSnoc(p, x, c);
      ReverseIsFilter(p, c);
    }
  }

  /** `RawsFor` finds something exactly when some accepted record names `c`. */
  lemma {:induction false} RawsForNonEmpty(items: seq<Record>, c: string)
    ensures RawsFor(items, c) != [] <==> ListsCanonical(items, c)
  {
    if items != [] {
      var tail := items[1..];
      RawsForNonEmpty(tail, c);
      if ListsCanonical(tail, c) {
        var i :| 0 <= i < |tail| && Accepted(tail[i]) && Canonical(tail[i]) == c;
        assert items[i + 1] == tail[i];
      }
      if ListsCanonical(items, c) && !(Accepted(items[0]) && Canonical(items[0]) == c) {
        var i :| 0 <= i < |items| && Accepted(items[i]) && Canonical(items[i]) == c;
        assert tail[i - 1] == items[i];
      }
    }
  }

  /** A canonical symbol is a key of the reverse table exactly when some
      accepted record names it. */
  lemma ReverseDomain(items: seq<Record>, c: string)
    ensures c in BuildTables(items).reverse <==> ListsCanonical(items, c)
  {
    ReverseIsFilter(items, c);
    RawsForNonEmpty(items, c);
  }

  /** Each record can only add a canonical symbol at the end of the order. */
  lemma OrderGrows(items: seq<Record>)
    requires items != []
    ensures BuildTables(items[..|items| - 1]).order <= BuildTables(items).order
  {
  }

  /** The canonical symbols come out in the order they first appear among the
      accepted records: whatever record names a later one, an earlier one was
      named before it. */
  lemma {:induction false} CanonicalOrder(items: seq<Record>, i: int, j: int, q: int)
    requires 0 <= i < j < |BuildTables(items).order|
    requires 0 <= q < |items| && Accepted(items[q]) && Canonical(items[q]) == BuildTables(items).order[j]
    ensures exists k :: 0 <= k < q && Accepted(items[k]) && Canonical(items[k]) == BuildTables(items).order[i]
    decreases |items|, 1
  {
    var p := items[..|items| - 1];
    if j < |BuildTables(p).order| {
      CanonicalOrderBefore(items, i, j, q);
    } else {
      CanonicalOrderLast(items, i, j, q);
    }
  }

  /** `CanonicalOrder` when the later symbol was already there before the
      last record. */
  lemma {:induction false} CanonicalOrderBefore(items: seq<Record>, i: int, j: int, q: int)
    requires items != []
    requires 0 <= i < j < |BuildTables(items[..|items| - 1]).order|
    requires 0 <= q < |items| && Accepted(items[q]) && Canonical(items[q]) == BuildTables(items).order[j]
    ensures exists k :: 0 <= k < q && Accepted(items[k]) && Canonical(items[k]) == BuildTables(items).order[i]
    decreases |items|, 0
  {
    var p := items[..|items| - 1];
    var t, t' := BuildTables(p), BuildTables(items);
    OrderGrows(items);
    var q' := q;
    if q == |p| {
      assert t.order[j] in t.reverse;
      ReverseDomain(p, t.order[j]);
      q' :| 0 <= q' < |p| && Accepted(p[q']) && Canonical(p[q']) == t.order[j];
    }
    assert p[q'] == items[q'];
    CanonicalOrder(p, i, j, q');
    var k :| 0 <= k < q' && Accepted(p[k]) && Canonical(p[k]) == t.order[i];
    assert items[k] == p[k];
  }

  /** `CanonicalOrder` when the later symbol is new in the last record: only
      that record names it, and the earlier one was named before. */
  lemma CanonicalOrderLast(items: seq<Record>, i: int, j: int, q: int)
    requires items != []
    requires 0 <= i < j < |BuildTables(items).order| && j >= |BuildTables(items[..|items| - 1]).order|
    requires 0 <= q < |items| && Accepted(items[q]) && Canonical(items[q]) == BuildTables(items).order[j]
    ensures exists k :: 0 <= k < q && Accepted(items[k]) && Canonical(items[k]) == BuildTables(items).order[i]
  {
    var p := items[..|items| - 1];
    var t, t' := BuildTables(p), BuildTables(items);
    var ci, cj := t'.order[i], t'.order[j];
    assert ci == t.order[i] && ci in t.reverse;
    assert cj !in t.reverse;
    ReverseDomain(p, ci);
    var k :| 0 <= k < |p| && Accepted(p[k]) && Canonical(p[k]) == ci;
    assert items[k] == p[k];
    if q < |p| {
      assert p[q] == items[q];
      ReverseDomain(p, cj);
      assert false;
    }
  }

  // ---- the resolver ----

  /** A `SymbolResolver`: its tables, and whether they have been loaded. */
  datatype Resolver = Resolver(tables: Tables, loaded: bool)

  /** `SymbolResolver()`: empty tables, not loaded. */
  const NewResolver := Resolver(NoTables, false)

  /** What `load_aliases` leaves behind: the resolver, the client it holds
      after the request (none when it was made without one), and the requests
      it sent. */
  datatype Load = Load(resolver: Resolver, api: Option<Client>, sent: seq<Request>)

  /** `load_aliases()` through the client `c`: once loaded it does nothing;
      otherwise it asks for the aliases and, when that succeeds, rebuilds both
      tables from scratch and marks the resolver loaded. A failed request
      leaves the resolver as it was. */
  function LoadWith(r: Resolver, c: Client, now: real, server: Request -> Reply): (l: Load)
    ensures r.loaded ==> l == Load(r, Some(c), [])
    ensures !r.loaded ==> l.api == Some(GetSymbolAliases(c, AliasLimit, now, server).client)
    ensures !r.loaded ==> l.sent == GetSymbolAliases(c, AliasLimit, now, server).sent
    ensures !l.resolver.loaded ==> l.resolver == r
    ensures !r.loaded && l.resolver.loaded ==>
              var response := GetSymbolAliases(c, AliasLimit, now, server).result;
              response.Ok? && l.resolver.tables == BuildTables(DataOrEmpty(response.value))
    ensures l.resolver.loaded <==> r.loaded || GetSymbolAliases(c, AliasLimit, now, server).result.Ok?
  {
    if r.loaded then
      Load(r, Some(c), [])
    else
      var s := GetSymbolAliases(c, AliasLimit, now, server);
      match s.result
      case Err(_) => Load(r, Some(s.client), s.sent)
      case Ok(response) => Load(Resolver(BuildTables(DataOrEmpty(response)), true), Some(s.client), s.sent)
  }

  /** `load_aliases()` as written. A resolver made without a client reaches
      for `get_api_client()`, but that is a coroutine function, so
      `async with get_api_client()` fails before any request is made; the
      handler swallows the failure and the resolver stays as it was. */
  function LoadAliases(r: Resolver, api: Option<Client>, now: real, server: Request -> Reply): (l: Load)
    ensures r.loaded ==> l == Load(r, api, [])
    // without a client nothing is sent and nothing changes
    ensures api.None? ==> l == Load(r, None, [])
    // with one, the load goes through it
    ensures api.Some? ==> l == LoadWith(r, api.value, now, server)
    ensures !l.resolver.loaded ==> l.resolver == r
    ensures l.resolver.loaded <==>
              r.loaded || (api.Some? && GetSymbolAliases(api.value, AliasLimit, now, server).result.Ok?)
  {
    if r.loaded then
      Load(r, api, [])
    else
      match api
      case None => Load(r, None, [])
      case Some(c) => LoadWith(r, c, now, server)
  }

  /** `load_aliases()` as evidently intended: a resolver made without a
      client loads through a default `PerpsAPIClient()`, whose key comes from
      the environment, and still holds no client afterwards. */
  function LoadAliasesFixed(r: Resolver, api: Option<Client>, envApiKey: string, now: real,
                            server: Request -> Reply): (l: Load)
    // with a client it is `load_aliases()` as written
    ensures api.Some? ==> l == LoadAliases(r, api, now, server)
    ensures api.None? ==> l.api == None
    ensures !l.resolver.loaded ==> l.resolver == r
    // without one, a loaded resolver is left alone and an unloaded one sends
    // the default client's alias request
    ensures api.None? && r.loaded ==> l == Load(r, None, [])
    ensures api.None? && !r.loaded ==>
              l.sent == GetSymbolAliases(NewClient("", "", envApiKey), AliasLimit, now, server).sent
    // and that request decides; a success rebuilds both tables from its response
    ensures api.None? ==>
              var response := GetSymbolAliases(NewClient("", "", envApiKey), AliasLimit, now, server).result;
              && (l.resolver.loaded <==> r.loaded || response.Ok?)
              && (!r.loaded && l.resolver.loaded ==> l.resolver.tables == BuildTables(DataOrEmpty(response.value)))
  {
    match api
    case Some(_) => LoadAliases(r, api, now, server)
    case None =>
      var l := LoadWith(r, NewClient("", "", envApiKey), now, server);
      Load(l.resolver, None, l.sent)
  }

  /** A server that answers every request with status 200 and an empty
      alias list. */
  function EmptyAliasServer(): Request -> Reply {
    (q: Request) => Reply(200, Payload(Some([]), map[]))
  }

  /** A resolver made without a client never loads, even against a server
      that answers every request; loading through a default client does. */
  lemma NoClientNeverLoads(now: real, envApiKey: string)
    ensures !LoadAliases(NewResolver, None, now, EmptyAliasServer()).resolver.loaded
    ensures LoadAliasesFixed(NewResolver, None, envApiKey, now, EmptyAliasServer()).resolver.loaded
  {
    var c := NewClient("", "", envApiKey);
    var q := RequestFor(c, AliasesEndpoint, [("limit", IntVal(AliasLimit))]);
    assert EmptyAliasServer()(q) == Reply(200, Payload(Some([]), map[]));
    assert !IsCacheValid(c.cache, CacheKey(AliasesEndpoint, [("limit", IntVal(AliasLimit))]), now);
  }

  /** `resolve_symbol(symbol)`: the canonical symbol when there is an alias,
      the symbol itself otherwise. */
  function Resolve(r: Resolver, symbol: string): (out: string)
    ensures symbol in r.tables.aliases && symbol != "" ==> out == r.tables.aliases[symbol]
    ensures symbol !in r.tables.aliases ==> out == symbol
    ensures symbol == "" ==> out == ""
  {
    if symbol == "" then symbol
    else if symbol in r.tables.aliases then r.tables.aliases[symbol]
    else symbol
  }

  /** `get_aliases_for_symbol(canonical)`: the raw symbols listed for it, or
      the symbol alone when none are. */
  function AliasesFor(r: Resolver, canonical: string): (out: seq<string>)
    ensures canonical in r.tables.reverse ==> out == r.tables.reverse[canonical]
    ensures canonical !in r.tables.reverse ==> out == [canonical]
  {
    if canonical in r.tables.reverse then r.tables.reverse[canonical] else [canonical]
  }

  /** `get_all_canonical_symbols()` */
  function AllCanonical(r: Resolver): (out: seq<string>)
    ensures WellFormed(r.tables) ==> forall c :: c in out <==> c in r.tables.reverse
    ensures WellFormed(r.tables) ==> forall i, j :: 0 <= i < j < |out| ==> out[i] != out[j]
  {
    r.tables.order
  }

  /** `get_alias_count()` */
  function AliasCount(r: Resolver): (n: int)
    ensures n >= 0
    ensures n == 0 <==> r.tables.aliases == map[]
  {
    |r.tables.aliases|
  }

  /** A resolver loaded from `items`. */
  function LoadedFrom(items: seq<Record>): Resolver {
    Resolver(BuildTables(items), true)
  }

  /** No alias is ever recorded for the empty symbol, so the early return for
      an empty symbol agrees with the table lookup. */
  lemma EmptyNeverAliased(items: seq<Record>)
    ensures "" !in BuildTables(items).aliases
  {
    AliasesDomain(items, "");
  }

  /** Resolving through loaded tables: the canonical symbol of the last
      accepted record listing the symbol, or the symbol itself when no
      accepted record lists it. */
  lemma ResolveLoaded(items: seq<Record>, i: int)
    requires 0 <= i < |items| && Accepted(items[i])
    requires forall k :: i < k < |items| && Accepted(items[k]) ==> Raw(items[k]) != Raw(items[i])
    ensures Resolve(LoadedFrom(items), Raw(items[i])) == Canonical(items[i])
  {
    LastWriteWins(items, i);
  }

  lemma ResolveUnlisted(items: seq<Record>, symbol: string)
    requires !ListsRaw(items, symbol)
    ensures Resolve(LoadedFrom(items), symbol) == symbol
  {
    AliasesDomain(items, symbol);
  }

  /** `get_aliases_for_symbol` on loaded tables: the raw symbols of the
      accepted records naming the symbol, in input order, or the symbol alone
      when no accepted record names it; never empty. */
  lemma AliasesForLoaded(items: seq<Record>, c: string)
    ensures ListsCanonical(items, c) ==> AliasesFor(LoadedFrom(items), c) == RawsFor(items, c)
    ensures !ListsCanonical(items, c) ==> AliasesFor(LoadedFrom(items), c) == [c]
    ensures AliasesFor(LoadedFrom(items), c) != []
  {
    ReverseIsFilter(items, c);
    RawsForNonEmpty(items, c);
  }

  /** `get_all_canonical_symbols` on loaded tables: each canonical symbol of
      an accepted record, exactly once. */
  lemma AllCanonicalLoaded(items: seq<Record>, c: string)
    ensures c in AllCanonical(LoadedFrom(items)) <==> ListsCanonical(items, c)
    ensures forall i, j :: 0 <= i < j < |AllCanonical(LoadedFrom(items))| ==>
              AllCanonical(LoadedFrom(items))[i] != AllCanonical(LoadedFrom(items))[j]
  {
    ReverseIsFilter(items, c);
    RawsForNonEmpty(items, c);
  }

  /** `get_alias_count` on loaded tables: the number of distinct raw symbols
      among the accepted records, however often each is repeated. */
  lemma AliasCountLoaded(items: seq<Record>)
    ensures AliasCount(LoadedFrom(items)) == |RawSet(items)|
  {
    var aliases := BuildTables(items).aliases;
    forall raw ensures raw in aliases.Keys <==> raw in RawSet(items) {
      AliasesDomain(items, raw);
      if ListsRaw(items, raw) {
        var i :| 0 <= i < |items| && Accepted(items[i]) && Raw(items[i]) == raw;
        assert Raw(items[i]) in RawSet(items);
      }
    }
    assert aliases.Keys == RawSet(items);
  }

  /** No two accepted records send the same raw symbol to different
      canonical symbols. */
  ghost predicate OneCanonicalPerRaw(items: seq<Record>) {
    forall i, k :: 0 <= i < |items| && 0 <= k < |items| && Accepted(items[i]) && Accepted(items[k]) ==>
      Raw(items[i]) == Raw(items[k]) ==> Canonical(items[i]) == Canonical(items[k])
  }

  /** When no raw symbol is listed under two canonical symbols, every raw
      symbol listed for a canonical symbol resolves to it. */
  lemma ReverseAgreesWithAliases(items: seq<Record>, c: string, raw: string)
    requires OneCanonicalPerRaw(items)
    requires raw in AliasesFor(LoadedFrom(items), c) && ListsCanonical(items, c)
    ensures Resolve(LoadedFrom(items), raw) == c
  {
    ReverseIsFilter(items, c);
    RawsForNonEmpty(items, c);
    var i := RawsForIndex(items, c, raw);
    var k := LastListing(items, i);
    LastWriteWins(items, k);
  }

  /** Where a raw symbol listed for `c` came from. */
  lemma {:induction false} RawsForIndex(items: seq<Record>, c: string, raw: string) returns (i: int)
    requires raw in RawsFor(items, c)
    ensures 0 <= i < |items| && Accepted(items[i]) && Canonical(items[i]) == c && Raw(items[i]) == raw
  {
    if Accepted(items[0]) && Canonical(items[0]) == c && Raw(items[0]) == raw {
      i := 0;
    } else {
      var j := RawsForIndex(items[1..], c, raw);
      i := j + 1;
    }
  }

  /** The last accepted record listing the same raw symbol as record `i`. */
  lemma {:induction false} LastListing(items: seq<Record>, i: int) returns (k: int)
    requires 0 <= i < |items| && Accepted(items[i])
    ensures i <= k < |items| && Accepted(items[k]) && Raw(items[k]) == Raw(items[i])
    ensures forall m :: k < m < |items| && Accepted(items[m]) ==> Raw(items[m]) != Raw(items[i])
    decreases |items| - i
  {
    if exists m :: i < m < |items| && Accepted(items[m]) && Raw(items[m]) == Raw(items[i]) {
      var m :| i < m < |items| && Accepted(items[m]) && Raw(items[m]) == Raw(items[i]);
      k := LastListing(items, m);
    } else {
      k := i;
    }
  }

  /** A raw symbol moved to a second canonical symbol stays listed under the
      first one, although it no longer resolves to it. */
  lemma StaleReverseEntry()
    ensures var a := Record(map["symbol_raw" := "XBT", "symbol_canonical" := "BTC-USD"]);
            var b := Record(map["symbol_raw" := "XBT", "symbol_canonical" := "BTC-USDT"]);
            var r := LoadedFrom([a, b]);
            && AliasesFor(r, "BTC-USD") == ["XBT"]
            && Resolve(r, "XBT") == "BTC-USDT"
  {
    var a := Record(map["symbol_raw" := "XBT", "symbol_canonical" := "BTC-USD"]);
    var b := Record(map["symbol_raw" := "XBT", "symbol_canonical" := "BTC-USDT"]);
    assert Raw(a) == "XBT" && Canonical(a) == "BTC-USD" && Raw(b) == "XBT" && Canonical(b) == "BTC-USDT";
    assert [a, b][..1] == [a];
    assert [a][..0] == [];
    var t1 := Tables(map["XBT" := "BTC-USD"], map["BTC-USD" := ["XBT"]], ["BTC-USD"]);
    assert BuildTables([a]) == t1;
    assert BuildTables([a, b]) == AddItem(t1, b);
  }

  // ---- normalisation ----

  /** The form `normalize_symbol` gives a symbol before alias resolution:
      stripped, upper-cased, and `-USD` appended when it has no `-`. */
  predicate IsNormalForm(s: string) {
    && s != ""
    && Text.IsStripped(s)
    && Text.Upper(s) == s
    && '-' in s
  }

  lemma {:induction false} UpperAppend(a: string, b: string)
    ensures Text.Upper(a + b) == Text.Upper(a) + Text.Upper(b)
  {
    assert forall i :: 0 <= i < |a + b| ==> Text.Upper(a + b)[i] == (Text.Upper(a) + Text.Upper(b))[i];
  }

  /** `strip().upper()`, then the `-USD` suffix when there is no `-`. */
  function SymbolForm(symbol: string): (s: string)
    ensures s == "" <==> forall i :: 0 <= i < |symbol| ==> Text.IsSpace(symbol[i])
    ensures s != "" ==> IsNormalForm(s)
    ensures Text.Upper(Text.Strip(symbol)) <= s
    ensures '-' in Text.Strip(symbol) ==> s == Text.Upper(Text.Strip(symbol))
    ensures '-' !in Text.Strip(symbol) && s != "" ==> s == Text.Upper(Text.Strip(symbol)) + "-USD"
  {
    var u := Text.Upper(Text.Strip(symbol));
    Text.UpperPreserves(Text.Strip(symbol));
    Text.UpperIdempotent(Text.Strip(symbol));
    if '-' !in u && u != "" then
      WithSuffixNormal(u);
      u + "-USD"
    else
      u
  }

  /** Appending `-USD` to stripped upper-case text gives a normal form. */
  lemma WithSuffixNormal(u: string)
    requires u != "" && Text.IsStripped(u) && Text.Upper(u) == u
    ensures IsNormalForm(u + "-USD")
  {
    UpperAppend(u, "-USD");
    assert Text.Upper("-USD") == "-USD";
    assert (u + "-USD")[|u|] == '-';
  }

  /** `normalize_symbol(symbol)`: the empty symbol is returned as it is;
      anything else is put in `SymbolForm` and then resolved. */
  function Normalize(r: Resolver, symbol: string): (out: string)
    ensures symbol == "" ==> out == ""
    ensures (forall i :: 0 <= i < |symbol| ==> Text.IsSpace(symbol[i])) ==> out == ""
    ensures SymbolForm(symbol) !in r.tables.aliases ==> out == SymbolForm(symbol)
    ensures SymbolForm(symbol) in r.tables.aliases && SymbolForm(symbol) != "" ==> out == r.tables.aliases[SymbolForm(symbol)]
  {
    if symbol == "" then symbol else Resolve(r, SymbolForm(symbol))
  }

  /** A symbol already in normal form is its own `SymbolForm`. */
  lemma SymbolFormOfNormal(s: string)
    requires IsNormalForm(s)
    ensures SymbolForm(s) == s
  {
    Text.StripOfStripped(s);
  }

  /** Alias tables whose every target is in normal form and resolves to
      itself; empty tables are such. */
  predicate Settled(t: Tables) {
    forall raw :: raw in t.aliases ==>
      IsNormalForm(t.aliases[raw]) && (t.aliases[raw] in t.aliases ==> t.aliases[t.aliases[raw]] == t.aliases[raw])
  }

  /** Normalising twice is normalising once, for settled alias tables (in
      particular, for no aliases at all). */
  lemma NormalizeIdempotent(r: Resolver, symbol: string)
    requires Settled(r.tables)
    ensures Normalize(r, Normalize(r, symbol)) == Normalize(r, symbol)
  {
    var v := SymbolForm(symbol);
    if symbol != "" && v != "" {
      var w := Normalize(r, symbol);
      if v in r.tables.aliases {
        assert w == r.tables.aliases[v];
        SymbolFormOfNormal(w);
      } else {
        SymbolFormOfNormal(v);
      }
    }
  }

  /** With no aliases loaded, normalising twice is normalising once. */
  lemma NormalizeIdempotentUnloaded(symbol: string)
    ensures Normalize(NewResolver, Normalize(NewResolver, symbol)) == Normalize(NewResolver, symbol)
  {
    NormalizeIdempotent(NewResolver, symbol);
  }

  /** Facts about the tickers in the examples below. */
  lemma SuffixLiterals()
    ensures '-' !in "BTC" && '-' !in "XBT"
    ensures "BTC" + "-USD" == "BTC-USD"
    ensures "XBT" + "-USD" == "XBT-USD"
  {
  }

  /** A symbol whose stripped, upper-cased text `u` is not empty and has no
      `-` becomes `u` followed by `-USD`. */
  lemma SymbolFormSuffixed(symbol: string, u: string)
    requires Text.Upper(Text.Strip(symbol)) == u && u != "" && '-' !in u
    ensures SymbolForm(symbol) == u + "-USD"
  {
    Text.UpperPreserves(Text.Strip(symbol));
  }

  /** `btc` upper-cased, one character at a time. */
  lemma UpperBtc()
    ensures Text.Upper("btc") == "BTC"
  {
    assert Text.UpperChar('b') == 'B' && Text.UpperChar('t') == 'T' && Text.UpperChar('c') == 'C';
    assert Text.Upper("c") == "C" by {
      assert "c"[1..] == [];
    }
    assert Text.Upper("tc") == "TC" by {
      assert "tc"[1..] == "c";
    }
    assert "btc"[1..] == "tc";
  }

  /** `XBT` is already upper case. */
  lemma UpperXbt()
    ensures Text.Upper("XBT") == "XBT"
  {
    assert Text.UpperChar('X') == 'X' && Text.UpperChar('B') == 'B' && Text.UpperChar('T') == 'T';
    assert Text.Upper("T") == "T" by {
      assert "T"[1..] == [];
    }
    assert Text.Upper("BT") == "BT" by {
      assert "BT"[1..] == "T";
    }
    assert "XBT"[1..] == "BT";
  }

  lemma SymbolFormBtc()
    ensures SymbolForm("btc") == "BTC-USD"
  {
    assert Text.Strip("btc") == "btc" by {
      assert "btc"[0] == 'b' && "btc"[2] == 'c';
      Text.StripOfStripped("btc");
    }
    UpperBtc();
    SuffixLiterals();
    SymbolFormSuffixed("btc", "BTC");
  }

  /** ` btc ` stripped, one end at a time. */
  lemma StripPaddedBtc()
    ensures Text.Strip(" btc ") == "btc"
  {
    TrimStartPaddedBtc();
    TrimEndPaddedBtc();
  }

  lemma TrimStartPaddedBtc()
    ensures Text.TrimStart(" btc ") == "btc "
  {
    var t := "btc ";
    assert t[0] == 'b' && !Text.IsSpace('b');
    assert Text.TrimStart(t) == t;
    assert " btc " == [' '] + t;
    assert ([' '] + t)[1..] == t;
  }

  lemma TrimEndPaddedBtc()
    ensures Text.TrimEnd("btc ") == "btc"
  {
    assert "btc "[..3] == "btc";
  }

  lemma SymbolFormPaddedBtc()
    ensures SymbolForm(" btc ") == "BTC-USD"
  {
    StripPaddedBtc();
    UpperBtc();
    SuffixLiterals();
    SymbolFormSuffixed(" btc ", "BTC");
  }

  lemma SymbolFormXbt()
    ensures SymbolForm("XBT") == "XBT-USD"
  {
    assert Text.Strip("XBT") == "XBT" by {
      assert "XBT"[0] == 'X' && "XBT"[2] == 'T';
      Text.StripOfStripped("XBT");
    }
    UpperXbt();
    SuffixLiterals();
    SymbolFormSuffixed("XBT", "XBT");
  }

  /** An alias table that is not settled: it sends `BTC-USD` to `XBT`,
      which is not itself in normal form. */
  const Unsettled := Resolver(Tables(map["BTC-USD" := "XBT"], map["XBT" := ["BTC-USD"]], ["XBT"]), true)

  /** Without the settled condition normalising can move again: `btc`
      normalises to `XBT` (this lemma), and `XBT` on to `XBT-USD`
      (`UnsettledMovesAgain`). */
  lemma UnsettledNotIdempotent()
    ensures Normalize(Unsettled, "btc") == "XBT"
  {
    var aliases := Unsettled.tables.aliases;
    assert "BTC-USD" in aliases && aliases["BTC-USD"] == "XBT";
    SymbolFormBtc();
  }

  lemma UnsettledMovesAgain()
    ensures Normalize(Unsettled, "XBT") == "XBT-USD"
  {
    SymbolFormXbt();
    assert "XBT-USD" != "BTC-USD" by { assert "XBT-USD"[0] != "BTC-USD"[0]; }
    assert Normalize(Unsettled, "XBT") == Resolve(Unsettled, "XBT-USD");
  }

  /** A padded lower-case ticker with no aliases loaded becomes its `-USD`
      pair. */
  lemma NormalizeExample()
    ensures Normalize(NewResolver, " btc ") == "BTC-USD"
  {
    assert NewResolver.tables.aliases == map[];
    SymbolFormPaddedBtc();
  }

  /** Two records listing raw symbols of `BTC-USD`. */
  const XbtListings := [
    Record(map["symbol_raw" := "XBT-USD", "symbol_canonical" := "BTC-USD"]),
    Record(map["symbol_raw" := "XBTC-USD", "symbol_canonical" := "BTC-USD"])
  ]

  /** The raw symbols of one canonical symbol come back in load order, and
      a symbol nobody lists stands for itself. */
  lemma AliasesForExample()
    ensures AliasesFor(LoadedFrom(XbtListings), "BTC-USD") == ["XBT-USD", "XBTC-USD"]
    ensures AliasesFor(LoadedFrom(XbtListings), "UNKNOWN") == ["UNKNOWN"]
  {
    var a, b := XbtListings[0], XbtListings[1];
    assert Raw(a) == "XBT-USD" && Canonical(a) == "BTC-USD" && Raw(b) == "XBTC-USD" && Canonical(b) == "BTC-USD";
    assert XbtListings[..1] == [a];
    assert [a][..0] == [];
    var t1 := Tables(map["XBT-USD" := "BTC-USD"], map["BTC-USD" := ["XBT-USD"]], ["BTC-USD"]);
    assert BuildTables([a]) == t1;
    var t2 := BuildTables(XbtListings);
    assert t2 == AddItem(t1, b);
    assert t2.reverse == t1.reverse["BTC-USD" := ["XBT-USD"] + ["XBTC-USD"]];
    assert ["XBT-USD"] + ["XBTC-USD"] == ["XBT-USD", "XBTC-USD"];
    assert "UNKNOWN" !in t2.reverse by {
      assert t2.reverse.Keys == {"BTC-USD"};
    }
    assert "UNKNOWN" != "BTC-USD" by { assert "UNKNOWN"[0] != "BTC-USD"[0]; }
  }
}

=== FILE: text.dfy ===
/** The few Python `str` operations the client and the resolver rely on:
    `strip()`, `upper()`, `str(int)`, and the ordering `<` that `sorted` uses. */
module Text {
  import opened Results

  /** The characters for which Python's `str.isspace()` holds; `str.strip()`
      with no argument removes exactly these from both ends. */
  predicate IsSpace(c: char) {
    || c == ' '
    || ('\t' <= c <= '\r')
    || ('\U{1C}' <= c <= '\U{1F}')
    || c == '\U{85}' || c == '\U{A0}' || c == '\U{1680}'
    || ('\U{2000}' <= c <= '\U{200A}')
    || c == '\U{2028}' || c == '\U{2029}' || c == '\U{202F}' || c == '\U{205F}' || c == '\U{3000}'
  }

  /** `s` has no whitespace at either end: `strip()` leaves it alone. */
  predicate IsStripped(s: string) {
    s == [] || (!IsSpace(s[0]) && !IsSpace(s[|s| - 1]))
  }

  function TrimStart(s: string): (r: string)
    ensures |r| <= |s| && r == s[|s| - |r|..]
    ensures forall i :: 0 <= i < |s| - |r| ==> IsSpace(s[i])
    ensures r == [] || !IsSpace(r[0])
  {
    if s != [] && IsSpace(s[0]) then TrimStart(s[1..]) else s
  }

  function TrimEnd(s: string): (r: string)
    ensures |r| <= |s| && r == s[..|r|]
    ensures forall i :: |r| <= i < |s| ==> IsSpace(s[i])
    ensures r == [] || !IsSpace(r[|r| - 1])
  {
    if s != [] && IsSpace(s[|s| - 1]) then TrimEnd(s[..|s| - 1]) else s
  }

  /** `r` is `s` with only whitespace cut from its front (`s[..i]`) and its
      back (`s[j..]`). */
  predicate CutsWhitespace(s: string, r: string, i: int, j: int) {
    && 0 <= i <= j <= |s| && r == s[i..j]
    && (forall k :: 0 <= k < i ==> IsSpace(s[k]))
    && (forall k :: j <= k < |s| ==> IsSpace(s[k]))
  }

  /** Python's `str.strip()`: the longest middle piece of `s` that neither
      starts nor ends with whitespace, obtained by removing whitespace only. */
  function Strip(s: string): (r: string)
    ensures IsStripped(r)
    ensures exists i, j :: CutsWhitespace(s, r, i, j)
    ensures r == [] <==> forall i :: 0 <= i < |s| ==> IsSpace(s[i])
  {
    var t := TrimStart(s);
    var r := TrimEnd(t);
    assert r == s[|s| - |t|..|s| - |t| + |r|];
    assert CutsWhitespace(s, r, |s| - |t|, |s| - |t| + |r|) by {
      forall k | |s| - |t| + |r| <= k < |s| ensures IsSpace(s[k]) {
        assert s[k] == t[k - (|s| - |t|)];
      }
    }
    assert r == [] ==> forall i :: 0 <= i < |s| ==> IsSpace(s[i]) by {
      if r == [] {
        assert t == [];
      }
    }
    r
  }

  /** A string without whitespace at its ends is its own `strip()`. */
  lemma {:induction false} StripOfStripped(s: string)
    requires IsStripped(s)
    ensures Strip(s) == s
  {
    assert TrimStart(s) == s;
    assert TrimEnd(s) == s;
  }

  /** Python's `str.upper()` on one character, for ASCII: `a`-`z` become
      `A`-`Z`, every other character is left as it is. */
  function UpperChar(c: char): (u: char)
    // a lower-case letter becomes the same letter of the alphabet in upper case
    ensures 'a' <= c <= 'z' ==> 'A' <= u <= 'Z' && u as int - 'A' as int == c as int - 'a' as int
    ensures !('a' <= c <= 'z') ==> u == c
    // no lower-case letter is left, so upper-casing again changes nothing
    ensures !('a' <= u <= 'z')
  {
    if 'a' <= c <= 'z' then (c as int - 32) as char else c
  }

  /** Python's `str.upper()`, character by character. */
  function Upper(s: string): (r: string)
    ensures |r| == |s|
    ensures forall i :: 0 <= i < |s| ==> r[i] == UpperChar(s[i])
  {
    if s == [] then [] else [UpperChar(s[0])] + Upper(s[1..])
  }

  /** Upper-casing twice is the same as upper-casing once. */
  lemma UpperIdempotent(s: string)
    ensures Upper(Upper(s)) == Upper(s)
  {
    var u := Upper(s);
    assert forall i :: 0 <= i < |s| ==> UpperChar(u[i]) == u[i];
  }

  /** Upper-casing never creates or removes whitespace at the ends, or a `-`
      anywhere. */
  lemma UpperPreserves(s: string)
    ensures IsStripped(s) ==> IsStripped(Upper(s))
    ensures ('-' in Upper(s)) <==> ('-' in s)
  {
    var u := Upper(s);
    if '-' in u {
      var i :| 0 <= i < |u| && u[i] == '-';
      assert s[i] == '-';
    }
    if '-' in s {
      var i :| 0 <= i < |s| && s[i] == '-';
      assert u[i] == '-';
    }
  }

  function DigitChar(d: int): (c: char)
    requires 0 <= d < 10
    ensures '0' <= c <= '9'
  {
    ('0' as int + d) as char
  }

  predicate IsDigits(s: string) {
    |s| >= 1 && forall i :: 0 <= i < |s| ==> '0' <= s[i] <= '9'
  }

  /** Decimal digits of a natural number, most significant first, no leading zero. */
  function NatToString(n: nat): (r: string)
    ensures IsDigits(r)
  {
    if n < 10 then [DigitChar(n)] else NatToString(n / 10) + [DigitChar(n % 10)]
  }

  /** Python's `str(i)` for an `int`. */
  function IntToString(i: int): (r: string)
    ensures |r| >= 1
    ensures i < 0 <==> r[0] == '-'
    ensures forall k :: 0 <= k < |r| ==> r[k] == '-' || '0' <= r[k] <= '9'
  {
    if i < 0 then "-" + NatToString(-i) else NatToString(i)
  }

  function ParseDigits(s: string): nat
    requires forall i :: 0 <= i < |s| ==> '0' <= s[i] <= '9'
  {
    if s == [] then 0 else ParseDigits(s[..|s| - 1]) * 10 + (s[|s| - 1] as int - '0' as int)
  }

  /** Reads an optionally negative decimal integer. */
  function ParseInt(s: string): Option<int> {
    if |s| > 0 && s[0] == '-' then
      if IsDigits(s[1..]) then Some(0 - ParseDigits(s[1..])) else None
    else if IsDigits(s) then Some(ParseDigits(s))
    else None
  }

  lemma {:induction false} ParseNatToString(n: nat)
    ensures ParseDigits(NatToString(n)) == n
  {
    if n >= 10 {
      var s := NatToString(n);
      assert s[..|s| - 1] == NatToString(n / 10);
      ParseNatToString(n / 10);
    }
  }

  /** `str(i)` can be read back: decimal rendering loses nothing. */
  lemma ParseIntToString(i: int)
    ensures ParseInt(IntToString(i)) == Some(i)
  {
    if i < 0 {
      var d := NatToString(-i);
      assert IntToString(i) == "-" + d;
      assert ("-" + d)[0] == '-' && ("-" + d)[1..] == d;
      ParseNatToString(-i);
    } else {
      var d := NatToString(i);
      assert d[0] != '-';
      ParseNatToString(i);
    }
  }

  /** Two ints with the same `str` are the same int. */
  lemma IntToStringInjective(i: int, j: int)
    requires IntToString(i) == IntToString(j)
    ensures i == j
  {
    ParseIntToString(i);
    ParseIntToString(j);
  }

  /** Python's `<` on `str`: lexicographic by code point, a proper prefix first. */
  predicate StrLess(a: string, b: string) {
    if a == [] then b != []
    else if b == [] then false
    else if a[0] != b[0] then a[0] < b[0]
    else StrLess(a[1..], b[1..])
  }

  lemma {:induction false} StrLessIrreflexive(a: string)
    ensures !StrLess(a, a)
  {
    if a != [] {
      StrLessIrreflexive(a[1..]);
    }
  }

  lemma {:induction false} StrLessTransitive(a: string, b: string, c: string)
    requires StrLess(a, b) && StrLess(b, c)
    ensures StrLess(a, c)
  {
    if a != [] && b != [] && c != [] && a[0] == b[0] && b[0] == c[0] {
      StrLessTransitive(a[1..], b[1..], c[1..]);
    }
  }

  /** `<` on strings is a strict total order: of two distinct strings exactly one is smaller. */
  lemma {:induction false} StrLessTotal(a: string, b: string)
    ensures a != b ==> StrLess(a, b) || StrLess(b, a)
    ensures !(StrLess(a, b) && StrLess(b, a))
  {
    if a != [] && b != [] && a[0] == b[0] {
      StrLessTotal(a[1..], b[1..]);
      if a[1..] == b[1..] {
        assert a == [a[0]] + a[1..] && b == [b[0]] + b[1..];
      }
    }
  }
}
